=== FILE: README.md ===
# file_transfer_grpc in Dafny

A model of the synchronisation core of file_transfer_grpc, a service that
makes a client's storage directory mirror the server's copy of that
client's storage over a gRPC server-streaming call. The client sends one
request listing every file it holds as a `{path, hash}` record, where the
hash is the SHA-256 digest of the file's content. The server answers with a
stream of per-file messages, and the client applies them to its directory.

The model covers four pieces, each over abstract data:

- **Inventory builder** (`HashIndexer`, in `hash_indexer.dfy`). The recursive
  walk of a directory tree lists every regular file with the digest of its
  content. It also covers the streaming digest computation and the listing of
  immediate subdirectories. A tree is a `Node` datatype, and a listing keeps
  its entries in listing order. SHA-256 is a parameter `H: Bytes -> Digest`
  applied to a file's whole content.
- **Diff planners.** `PlannerV2`, in `planner_v2.dfy`, is the tagged protocol:
  KEEP, DELETE, data chunks, then COMPLETE. `PlannerLegacy`, in
  `planner_legacy.dfy`, is the legacy protocol: a zero-length chunk means
  "unchanged", and there is no delete message. Both check the `clientId`
  metadata first (`Protocol`, in `protocol.dfy`). Each planner is a pure
  function from the request, the server inventory and the server's storage
  tree to a `Reply`. A reply is refused with INVALID_ARGUMENT, ended after its
  messages, or abandoned after its messages when a read fails.
- **Client sinks.** `SinkV2`, in `sink_v2.dfy`, and `SinkLegacy`, in
  `sink_legacy.dfy`, are folds of the messages over a file store
  `map<Path, Bytes>` and the session's write-stream registry.
  `SingleFlight`, in `single_flight.dfy`, interleaves the data handlers of one
  path at their awaits. It shows why the tagged-protocol client creates at
  most one stream per path, and how the legacy client can create two.
- **Admission gate** (`AdmissionGate`, in `gate.dfy`). This is the counter with
  a first-in first-out waiting queue that bounds how many file streams are
  open at once.

The functions that define the behaviour are these:
- `HashIndexer.Walk` and `HashIndexer.WalkEntries` are `gatherFileData` (src/file.ts:5-33).
- `PlannerV2.SyncFilesV2` and `PlannerLegacy.SyncFilesLegacy` are the two `syncFiles` handlers (src/server_v2.ts:39-130, src/server.ts:17-81).
- `SinkV2.Run` folds `SinkV2.Step`, the tagged-protocol data handler (src/client_v2.ts:49-84), over an answer.
- `SinkLegacy.Run` folds the legacy data handler (src/client.ts:36-48) over an answer, in its as-written or corrected form. `SinkLegacy.End` is the legacy end handler (src/client.ts:50-64).
- `SingleFlight.StepV2` and `SingleFlight.StepLegacy` run one synchronous segment of a data handler, between two awaits (src/client_v2.ts:65-83, src/client.ts:37-47).
- `AdmissionGate.Acquire` and `AdmissionGate.Release` are `waitForTurn` and `next` (src/read.service.ts:20-39).

`Sync`, in `sync.dfy`, composes a planner with its sink. It proves that the
tagged protocol converges, that the legacy protocol as written empties every
file the client already had up to date, and that a corrected legacy handler
converges. It also works through a concrete session.

Paths are sequences of name segments; joining, resolving and relativising a
path are segment concatenation. Messages of different paths are produced in
one fixed order: DELETEs, then KEEPs (or zero-length chunks), then whole
transfers in inventory order. The server runs its transfers concurrently.
`PlannerV2.PlanV2PerPath` and `SinkV2.RunIsLocal` together show that only
each path's own message order matters to the client, which the service does
preserve.

Where the code and its evident design disagree, the model follows the code,
with the departures listed next. Each one is also listed under Findings or
under "## Left out".

The model follows the code on these points:
- COMPLETE closes the path's stream but leaves its registry entry in place
  (src/client_v2.ts:60-63).
- The tagged-protocol client has no end-of-stream handler, so nothing is
  cleaned up when the response ends.

The model departs from the code on these points:
- `gatherFileData` returns an array of records (src/file.ts:8), but the
  tagged-protocol server and client use it as a `Map` from path to digest
  (src/server_v2.ts:12, src/server_v2.ts:59-62, src/client_v2.ts:27-32). The
  model keeps the walk's ordered list and its conversion `Types.ToMap`. It
  proves that the list's paths are distinct, so the conversion loses nothing.
  The request and the inventory are given the map's meaning. Literally, an
  array has no `has`, so a known client's request would throw at
  src/server_v2.ts:62, and the `forEach` at src/client_v2.ts:27-32 would pass
  (record, index).
- The request handlers use the intended `clientId` check (see Findings).
- The legacy chunk handler is given both as written and corrected (see
  Findings).
- The `rm` of a missing file is a removal that does nothing, and a data
  chunk for a closed stream is dropped (see "## Left out").

## Model

| member | source | states |
|---|---|---|
| Types.ToMapLosesNothing | src/server_v2.ts:20-23 | Turning a record list with distinct paths into the path-to-digest map keeps one key per record, and each key maps to that record's digest. |
| HashIndexer.CalculateFileHash | src/file.ts:35-52 | The digest computation succeeds exactly for a readable regular file. Its result is the digest of the file's whole content, however the reads are chunked, because every chunk is folded into one running hash. A read error gives a failure. |
| HashIndexer.WalkSucceedsIffHealthy | src/file.ts:5-33 | The walk succeeds exactly when the root is a readable directory and no listing or read below it fails. The first failure propagates out of the walk. |
| HashIndexer.WalkSound | src/file.ts:17-29 | Every record names a readable regular file by its path relative to the original root, even from nested recursion, and carries the digest of that file's content. No path occurs twice. |
| HashIndexer.WalkComplete | src/file.ts:17-29 | Every readable regular file below the root yields a record with its root-relative path. |
| HashIndexer.InventoryMapOfTree | src/file.ts:5-33 | The walk's record list, turned into a map, has exactly the tree's regular files as keys, one key per record. Each key maps to the digest of the file's content. |
| HashIndexer.InventoryIndependentOfListingOrder | src/file.ts:17-29 | Two trees holding the same files at the same paths, listed in any order, give the same path-to-digest map. |
| HashIndexer.WalkFollowsListing | src/file.ts:17-29 | Records below an earlier listing entry all come before records below a later one. So the output follows listing order, with each subdirectory's records spliced in at its place. |
| HashIndexer.GetFolders | src/file.ts:54-60 | The result is exactly the immediate entries whose `stat` says directory, in listing order, without recursion. It fails when the listing fails or when some entry's `stat` throws. |
| Protocol.CheckClientId | src/server_v2.ts:39-56 | As intended, a `clientId` that is absent, empty or not text is refused with INVALID_ARGUMENT and never throws. A non-empty text value is accepted and names the client. |
| Protocol.MissingClientIdThrows | src/server_v2.ts:44-47 | As written, a call without `clientId` throws in the log line before INVALID_ARGUMENT is sent. The intended check refuses it. |
| Protocol.CheckClientIdDiffersOnlyWhenMissing | src/server.ts:22-34 | The written and intended checks agree on every input except a missing value. |
| Protocol.IncomingHash | src/server_v2.ts:80-82 | The client's hash for a path is present exactly when some request record has that path. It is the hash of the first such record, as `find` returns it. |
| PlannerV2.SyncFilesV2 | src/server_v2.ts:39-63 | A call is refused exactly when the `clientId` check fails. For a client the server knows nothing about, the answer is one DELETE per request record, in request order. |
| Protocol.RecordForFirst | src/server_v2.ts:80-82 | The record found for a path is the earliest one with that path, as `find` returns it. `Protocol.IncomingHash` reads the client's hash through it. |
| PlannerV2.PlanV2 | src/server_v2.ts:61-130 | An accepted call is never refused. It is abandoned exactly when some inventory file that is not unchanged cannot be read, and otherwise it is ended. |
| PlannerV2.DeletesAreDeletes | src/server_v2.ts:61-71 | Every delete message names a request path that is not a key of the inventory. |
| PlannerV2.PlanV2PerPath | src/server_v2.ts:61-109 | An ended answer treats each path on its own terms. A path outside the inventory gets one DELETE per request record for it, so a path on neither side is never named. An unchanged file, meaning one whose first request record has an equal non-empty hash, gets exactly one KEEP and no data. Any other inventory file gets its chunks in order and then exactly one COMPLETE, so an empty file gets COMPLETE alone. Every inventory path is mentioned, and the answer ends only after every COMPLETE. |
| PlannerV2.PlanV2Order | src/server_v2.ts:65-92 | Every DELETE is written before any other message, and every KEEP before any data or COMPLETE message. |
| SinkV2.Step | src/client_v2.ts:49-84 | A message changes only its own path. KEEP changes nothing. DELETE removes exactly its path and leaves the registry alone. COMPLETE closes an existing stream, keeps the registry entry, and leaves the file store alone. A data message leaves a stream registered for its path. |
| SinkV2.RunIsLocal | src/client_v2.ts:49-88 | What a session leaves at a path, as content and stream, depends only on the messages naming that path, in their order. Unmentioned paths are untouched. |
| SinkV2.InterleavingIrrelevant | src/client_v2.ts:49-84 | Two message orders that keep each path's own order leave the client in the same state. |
| SinkV2.AppendsInOrder | src/client_v2.ts:83 | Chunks written through an open stream are appended in arrival order. |
| SinkV2.Transfer | src/client_v2.ts:60-83 | For a path without a stream, chunks then COMPLETE leave exactly the concatenated chunks and a closed stream. COMPLETE alone leaves the path as it was. |
| SinkV2.Deletes | src/client_v2.ts:54-57 | One or more DELETEs remove the file and leave its stream alone. None leaves the path as it was. |
| PlannerLegacy.SyncFilesLegacy | src/server.ts:17-39 | A call is refused exactly when the `clientId` check fails. The inventory is recomputed from that client's storage for each request, so every message of an ended answer names a file found there. |
| PlannerLegacy.PlanLegacy | src/server.ts:36-81 | An accepted call is never refused. A failed walk abandons it before any message. |
| PlannerLegacy.PlanLegacyEndsIffHealthy | src/server.ts:39-81 | For a well-formed storage the answer ends exactly when the root is a readable directory with no failing listing or read. The response ends only after every file is processed. |
| PlannerLegacy.MessagesNameServerFiles | src/server.ts:45-78 | No message of an ended answer names a path missing from the server's storage. |
| PlannerLegacy.PlanLegacyPerPath | src/server.ts:45-78 | An ended answer treats each path on its own terms. A path the walk did not list is never named, since there is no delete message. An unchanged file gets exactly one zero-length chunk. Any other file gets one message per chunk in file order, so an empty file gets none. |
| SinkLegacy.StepAsWritten | src/client.ts:36-48 | A chunk changes only its own path and leaves the path registered. A first chunk for an unregistered path creates a stream, which truncates the file to that chunk. A later chunk is appended. |
| SinkLegacy.StepCorrected | src/client.ts:36-48 | As intended, a zero-length chunk never changes any content but still registers its path. A non-empty chunk is handled as written. |
| SinkLegacy.End | src/client.ts:50-64 | At the end of the response, every file the request listed whose path was never registered is removed. Registered paths and unlisted paths keep their content, and the registry becomes empty. |
| SinkLegacy.RunIsLocal | src/client.ts:36-48 | What a session leaves at a path depends only on the chunks naming that path, in their order. |
| SinkLegacy.UnchangedEmptiesFile | src/client.ts:37-47 | As written, the zero-length "unchanged" chunk for an unregistered path leaves the file empty. |
| SinkLegacy.UnchangedKeepsFile | src/client.ts:37-47 | With the corrected handler, the "unchanged" chunk keeps the content and protects the file from end-of-response removal. |
| SinkLegacy.LegacyAppendsInOrder | src/client.ts:47 | Chunks for a registered path are appended in arrival order. |
| SinkLegacy.LegacyTransfer | src/client.ts:37-47 | Non-empty chunks for an unregistered path leave exactly their concatenation, with the path registered. No chunk leaves the path as it was. |
| SingleFlight.V2SingleStream | src/client_v2.ts:65-83 | Under every interleaving of the tagged-protocol data handlers for one path, at most one stream is created and every write goes through it. The lookup and the insertion of the pending stream happen before any await. |
| SingleFlight.V2SingleStreamFromStart | src/client_v2.ts:65-81 | From a session's start, any schedule of handlers creates at most one stream for the path, and every chunk is written through the first stream. |
| SingleFlight.LegacyRaceCreatesTwoStreams | src/client.ts:37-47 | When two legacy handlers for a new path both look it up before either finishes awaiting directory creation, two streams are created on the file and the chunks go through different streams. The tagged-protocol handlers share one stream under the same schedule. |
| AdmissionGate.DefaultGate | src/read.service.ts:9-18 | The shared service's gate admits at most 100 streams and starts with none running and nobody waiting. |
| AdmissionGate.Acquire | src/read.service.ts:31-39 | A caller is admitted at once exactly when fewer than `limit` streams run, and the count then grows by one. Otherwise the caller joins the tail of the queue. The invariant (0 <= running <= limit, and a waiter only when running == limit) is preserved. |
| AdmissionGate.Release | src/read.service.ts:20-29 | With an empty queue, the count drops by exactly one. Otherwise the count is unchanged and the head waiter is admitted. The invariant is preserved when a running stream gives its slot back. |
| AdmissionGate.Run | src/read.service.ts:20-51 | Over any schedule of requests and stream ends, the invariant holds. Running streams equal started streams minus ended ones. Every request was either started or is still waiting. Waiters are admitted first-in first-out. Every stream was created only after its caller was admitted. |
| AdmissionGate.RequestsWithoutFinish | src/read.service.ts:31-39 | When no slot is ever given back, the free slots go to the first callers. Every later caller waits, in arrival order. |
| AdmissionGate.WriteLeasesSuffice | src/read.service.ts:47-51 | From a fresh service, n write streams that keep their slot all open exactly when n is at most 100. |
| AdmissionGate.WriteLeasesNeverReturned | src/read.service.ts:47-51 | As written, after 100 write streams are open, the caller opening the 101st is left waiting with all 100 slots taken. No write stream ever gives its slot back. |
| AdmissionGate.ReturnedLeasesAdmitEveryone | src/read.service.ts:20-51 | When each write stream gives its slot back as it closes, any number of files written one after another are all admitted at once, and nobody ever waits. |
| Sync.WalkIndexes | src/file.ts:5-33 | The inventory a successful walk builds lists exactly the tree's regular files, each with its content digest, with no path repeated. |
| Sync.ClientRequestReports | src/client.ts:17-22 | Take a client tree and the store that holds exactly its readable regular files, with their contents. The request built by walking that tree lists every path of the store and no other, each with the digest of that file's content. |
| Sync.UnchangedMeansUpToDate | src/server_v2.ts:80-92 | If matching digests mean matching content, a file found unchanged is up to date on the client. |
| Sync.UpToDateMeansUnchanged | src/server.ts:49-60 | If digests are never empty, a file that is up to date on the client is found unchanged. |
| Sync.NonEmptyMeansChunks | src/file.ts:35-52 | On a well-formed storage, a server file has at least one byte exactly when its read yields at least one chunk. |
| Sync.DirectoryAtServerFileConflicts | src/client_v2.ts:72-75 | A client file `a/b.txt` against a server file `a` violates `Sync.NoPathConflicts`: the client's directory `a` stands where the server's file `a` must be written. |
| Sync.V2Converges | src/client_v2.ts:49-84 | Consider a tagged-protocol session over a well-formed storage that opens at most 100 write streams, where no client file lies on the way to a server file or the reverse (`Sync.NoPathConflicts`). The session ends normally. Afterwards every server file with at least one byte has the server's content on the client. Every such file that the client lacked or held with other content ends with its stream closed. A file the client already had up to date is answered with KEEP and gets no stream. Every client file the server lacks is removed, nothing else is created, and an empty server file stays as the client had it. |
| Sync.LegacyAsWrittenEmptiesUpToDateFiles | src/client.ts:36-64 | As written, a legacy session where no client file lies on the way to a server file or the reverse leaves every file the client already had up to date empty. Every other path ends as intended. |
| Sync.LegacyCorrectedConverges | src/client.ts:36-64 | With the corrected chunk handler, a legacy session where no client file lies on the way to a server file or the reverse leaves every non-empty server file with the server's content and removes every client file the server lacks. An empty server file survives only if the client already held it empty. |
| Sync.V2Scenario | src/server_v2.ts:61-109 | Client a.txt = "X", b.txt = "old" and server a.txt = "X", c.txt = "new" give DELETE b.txt, KEEP a.txt, data "new" for c.txt, COMPLETE c.txt. The client ends with a.txt = "X" and c.txt = "new". |
| Sync.LegacyScenario | src/client.ts:36-64 | In the same session over the legacy protocol, the answer is a zero-length chunk for a.txt and then "new" for c.txt. As written, the client ends with a.txt empty. With the corrected handler it keeps a.txt = "X". Either way b.txt is removed. |

## Left out

- gRPC transport is not modelled: server and client construction, port binding, credentials, metadata objects and the gzip option. Only the `clientId` metadata value is modelled, as an `Option<MetadataValue>`.
- Real file-system calls are replaced by a tree (`Node`) and a file store (`map<Path, Bytes>`): `readdir`, `stat`, read and write streams, `mkdir` and `rm`. A `rm` of a missing file is a no-op removal here, whereas in the source the promise is rejected and nothing handles it. On Node 15 or later an unhandled rejection ends the client process.
- SHA-256 internals are out of scope; the digest is the function parameter `H`. Convergence is proved under the hypotheses that a matching digest means matching content (`Sync.DigestsDistinguish`) and, for the legacy lemmas, that no digest is the empty string.
- The startup inventory cache and its staleness are not modelled (src/server_v2.ts:15-25). The tagged-protocol planner takes the cached inventory as an input, and `Sync.WalkIndexes` states what a fresh walk provides.
- Logging, `performance.now` timing and the client's `error` handler (which only logs) are not modelled.
- The server's concurrent transfers are modelled as one order, file after file in inventory order. The client is shown to be insensitive to how paths interleave.
- A read that fails part way through a file is not modelled. A file is either readable as a whole (`File`) or not at all (`UnreadableFile`). A failed read abandons the answer after the messages of the files before it.
- Lease release is not wired to stream events. `AdmissionGate.Release` is an explicit operation. The source releases on a stream's `end` event. Write streams never emit it, which is listed under Findings. A read stream that errors never emits it either, and the model does not claim that such a lease is returned.
- The admission gate is not connected to the planners and sinks; it is modelled on its own. The server's read leases are not modelled in the planners.
- Sync.V2Converges: covers only well-formed storage, where no read yields an empty chunk (`Sync.NonEmptyMeansChunks`), and only sessions that open at most 100 write streams (`Sync.StreamedPaths`). The client's write stream for a path takes a slot of its file service (src/client_v2.ts:75) and never gives it back. From the 101st stream on, a handler waits forever and its file is never written (`AdmissionGate.WriteLeasesNeverReturned`). The sink does not model the slots, so the bound is a hypothesis of the lemma rather than a step of its proof. The lemma also requires `Sync.NoPathConflicts`: no client file lies on the way to a server file, and no server file lies on the way to a client file. The flat store cannot show such a clash, but on a disk it ends the client. A client file `a/b.txt` against a server file `a` leaves a directory `a` after the DELETE, and opening the write stream for `a` then fails with no error listener (src/client_v2.ts:75). A client file `a` against a server file `a/b.txt` makes the `mkdir` of `a` fail (src/client_v2.ts:73), and that rejected promise is not handled.
- Sync.LegacyAsWrittenEmptiesUpToDateFiles: replays each chunk handler to completion before the next chunk arrives. The source awaits `mkdir` between looking up a path's stream and registering it (src/client.ts:37-44), so a file sent in two or more chunks can get two streams (`SingleFlight.LegacyRaceCreatesTwoStreams`). The end handler (src/client.ts:50-64) can also run while a chunk handler is still suspended. The lemma covers only the schedule without such overlaps. The lemma also requires `Sync.NoPathConflicts`: no client file lies on the way to a server file, and no server file lies on the way to a client file. The flat store cannot show such a clash, but on a disk it ends the client. A client file `a/b.txt` against a server file `a` still has its directory `a` when the data for `a` arrives, because removals wait for the end handler. Opening the write stream for `a` then fails with no error listener (src/client.ts:43). A client file `a` against a server file `a/b.txt` makes the `mkdir` of `a` fail (src/client.ts:42), and that rejected promise is not handled.
- Sync.LegacyCorrectedConverges: takes the same schedule as `Sync.LegacyAsWrittenEmptiesUpToDateFiles`, with each chunk handler finishing before the next chunk and before the end handler. Under other schedules the legacy client can still split a file over two streams, and this lemma does not cover them. The lemma also requires `Sync.NoPathConflicts`: no client file lies on the way to a server file, and no server file lies on the way to a client file. The flat store cannot show such a clash, but on a disk it ends the client. A client file `a/b.txt` against a server file `a` still has its directory `a` when the data for `a` arrives, because removals wait for the end handler. Opening the write stream for `a` then fails with no error listener (src/client.ts:43). A client file `a` against a server file `a/b.txt` makes the `mkdir` of `a` fail (src/client.ts:42), and that rejected promise is not handled.
- PlannerV2.SyncFilesV2: uses the intended `clientId` check, so a call without `clientId` is refused. As written, the handler throws in its log line before refusing (src/server_v2.ts:46). That behaviour is modelled by `Protocol.MissingClientIdThrows`, and the Findings table lists it.
- PlannerLegacy.SyncFilesLegacy: uses the intended `clientId` check in the same way. As written, the legacy handler throws at src/server.ts:24 for a missing `clientId`.
- SinkV2.Step: a data chunk for a path whose stream is already closed is dropped. The source would raise a write-after-end error, but no answer the planner produces can reach that case.
- The server's reading of the inventory is modelled with map semantics (src/server_v2.ts:59-62). Literally, the cached inventory is an array, which has no `has`. A request from a client with a cached inventory would therefore throw at src/server_v2.ts:62, and the call would fail. Only a client unknown to the cache gets the empty `Map` fallback, for which `has` works.
- The request-building loop is modelled with map semantics (src/client_v2.ts:27-32). Literally, `forEach((value, key))` on the returned array would pass (record, index).
- The proto file is not part of this model. Messages are a datatype, and the model takes it that a data message never carries the KEEP tag.
- Numbers are unbounded; the `running` counter's JavaScript number range plays no role.

## Findings

| source | as written | input that shows it | evidently intended | confidence | as-written member | corrected member |
|---|---|---|---|---|---|---|
| src/server_v2.ts:44-47 | The refusal's log line calls `clientName.toString()` when `clientName` is `undefined`, so the handler throws before INVALID_ARGUMENT is sent | a call without `clientId` metadata | end the call with INVALID_ARGUMENT | high, not executed | Protocol.MissingClientIdThrows | Protocol.CheckClientId |
| src/server.ts:22-25 | The same log line in the legacy handler throws for a missing `clientId` | a call without `clientId` metadata | end the call with INVALID_ARGUMENT | high, not executed | Protocol.MissingClientIdThrows | Protocol.CheckClientId |
| src/client.ts:37-47 | The zero-length "unchanged" chunk goes through the same path as data. It creates a write stream, which truncates the file, and then writes nothing. | client and server both hold a.txt = "X"; the client ends with a.txt empty | keep an unchanged file as it is | high, not executed | Sync.LegacyAsWrittenEmptiesUpToDateFiles | Sync.LegacyCorrectedConverges |
| src/read.service.ts:47-51 | A write stream gives its slot back on an `end` event, which a write stream never emits, so every file the client opens keeps a slot for good | a client receiving 101 changed non-empty files: the 101st write stream waits for a slot forever and that file is never written | give the slot back when the write stream closes | high, not executed | AdmissionGate.WriteLeasesNeverReturned | AdmissionGate.ReturnedLeasesAdmitEveryone |
| src/client.ts:37-44 | The stream lookup and the stream registration are separated by the await of `mkdir` | two chunks for a new path, with the second handler looking the path up while the first awaits `mkdir`; two streams are opened on the file | one stream per path, as the tagged-protocol client does (src/client_v2.ts:69-71) | medium, not executed | SingleFlight.LegacyRaceCreatesTwoStreams | SingleFlight.V2SingleStreamFromStart |

=== FILE: gate.dfy ===
/** The admission gate that bounds the number of open file streams: a
    counter of running streams, a limit, and a first-in first-out queue of
    callers waiting for a slot. Every read or write stream is started only
    once its caller has been admitted. */
module AdmissionGate {
  import opened Types

  /** The number of streams the shared file service lets run at once. */
  const DefaultLimit: nat := 100

  /** Identifies one caller of `waitForTurn` (one pending stream). */
  type WaiterId = nat

  datatype Gate = Gate(limit: nat, running: int, queue: seq<WaiterId>)

  /** The gate never admits more than its limit, and nobody waits while a
      slot is free. */
  predicate Invariant(g: Gate)
  {
    && 0 <= g.running <= g.limit
    && (|g.queue| > 0 ==> g.running == g.limit)
  }

  function NewGate(limit: nat): (g: Gate)
    ensures Invariant(g)
    ensures g.limit == limit && g.running == 0 && g.queue == []
  {
    Gate(limit, 0, [])
  }

  /** The gate of the shared file service. */
  function DefaultGate(): (g: Gate)
    ensures Invariant(g) && g.limit == 100 && g.running == 0 && g.queue == []
  {
    NewGate(DefaultLimit)
  }

  datatype Admission = Granted | Queued

  /** Waiting for a turn: with a free slot the caller takes it at once,
      otherwise it joins the tail of the queue. */
  function Acquire(g: Gate, id: WaiterId): (r: (Gate, Admission))
    ensures r.1 == Granted <==> g.running < g.limit
    ensures r.1 == Granted ==> r.0 == g.(running := g.running + 1)
    ensures r.1 == Queued ==> r.0 == g.(queue := g.queue + [id])
    ensures Invariant(g) ==> Invariant(r.0)
  {
    if g.running < g.limit then (g.(running := g.running + 1), Granted)
    else (g.(queue := g.queue + [id]), Queued)
  }

  /** A stream ended: with an empty queue its slot is freed; otherwise the slot
      passes straight to the waiter at the head of the queue, so the count of
      running streams does not change. */
  function Release(g: Gate): (r: (Gate, Option<WaiterId>))
    ensures |g.queue| == 0 ==> r.0 == g.(running := g.running - 1) && r.1 == None
    ensures |g.queue| > 0 ==>
              && r.0 == g.(queue := g.queue[1..])
              && r.1 == Some(g.queue[0])
    ensures Invariant(g) && g.running > 0 ==> Invariant(r.0)
  {
    var freed := g.running - 1;
    if |g.queue| == 0 then (g.(running := freed), None)
    else (Gate(g.limit, freed + 1, g.queue[1..]), Some(g.queue[0]))
  }

  /** What happens to the gate: a caller asks to open a stream, or an open
      stream ends and gives its slot back. */
  datatype Op = Request(id: WaiterId) | Finish

  function Apply(g: Gate, op: Op): Gate
  {
    match op
    case Request(id) => Acquire(g, id).0
    case Finish => Release(g).0
  }

  /** Slots are given back only by streams that hold one. */
  predicate Allowed(g: Gate, ops: seq<Op>)
    decreases |ops|
  {
    |ops| == 0 || ((ops[0].Finish? ==> g.running > 0) && Allowed(Apply(g, ops[0]), ops[1..]))
  }

  /** The gate after a schedule of operations. */
  function Replay(g: Gate, ops: seq<Op>): Gate
    decreases |ops|
  {
    if |ops| == 0 then g else Replay(Apply(g, ops[0]), ops[1..])
  }

  /** Callers `first`, `first + 1`, ..., `first + n - 1`. */
  function Callers(first: nat, n: nat): (ids: seq<WaiterId>)
    ensures |ids| == n && forall k :: 0 <= k < n ==> ids[k] == first + k
  {
    seq(n, k requires 0 <= k < n => first + k)
  }

  /** Those callers asking for a slot one after another. */
  function Requests(first: nat, n: nat): (ops: seq<Op>)
    ensures |ops| == n && forall k :: 0 <= k < n ==> ops[k] == Request(first + k)
  {
    seq(n, k requires 0 <= k < n => Request(first + k))
  }

  /** Requests that are never followed by a stream end: the free slots go to
      the first callers, and every later caller is left waiting, in order. */
  lemma {:induction false} RequestsWithoutFinish(g: Gate, first: nat, n: nat)
    requires Invariant(g)
    ensures var free := g.limit - g.running;
            Replay(g, Requests(first, n)) ==
              if n <= free then g.(running := g.running + n)
              else Gate(g.limit, g.limit, g.queue + Callers(first + free, n - free))
    decreases n
  {
    var ops := Requests(first, n);
    if n > 0 {
      var g1 := Acquire(g, first).0;
      assert ops[0] == Request(first) && ops[1..] == Requests(first + 1, n - 1);
      RequestsWithoutFinish(g1, first + 1, n - 1);
      if g.running == g.limit && n > 1 {
        assert [first] + Callers(first + 1, n - 1) == Callers(first, n);
        assert g1.queue + Callers(first + 1, n - 1) == g.queue + Callers(first, n);
      } else if g.running == g.limit {
        assert Callers(first, 1) == [first];
      }
    }
  }

  /** From a fresh service, `n` write streams that never give their slot back
      all get one exactly when `n` is within the limit. */
  lemma WriteLeasesSuffice(n: nat)
    ensures Replay(DefaultGate(), Requests(0, n)).queue == [] <==> n <= DefaultLimit
  {
    RequestsWithoutFinish(DefaultGate(), 0, n);
  }

  /** As written, a write stream gives its slot back on an "end" event, which
      a write stream never emits: after 100 files have been opened, the
      caller opening the 101st waits for a slot that never comes. */
  lemma WriteLeasesNeverReturned()
    ensures Replay(DefaultGate(), Requests(0, DefaultLimit + 1)) == Gate(DefaultLimit, DefaultLimit, [DefaultLimit])
  {
    RequestsWithoutFinish(DefaultGate(), 0, DefaultLimit + 1);
    assert Callers(DefaultLimit, 1) == [DefaultLimit];
  }

  /** Every request is granted at once, with no caller ever queued. */
  predicate NeverQueues(g: Gate, ops: seq<Op>)
    decreases |ops|
  {
    |ops| == 0 ||
    ((ops[0].Request? ==> Acquire(g, ops[0].id).1 == Granted) && NeverQueues(Apply(g, ops[0]), ops[1..]))
  }

  /** Files written one after another, each stream opened and then closed. */
  function OneAtATime(first: nat, n: nat): (ops: seq<Op>)
    ensures |ops| == 2 * n
    decreases n
  {
    if n == 0 then [] else [Request(first), Finish] + OneAtATime(first + 1, n - 1)
  }

  /** Corrected, a write stream gives its slot back when it is closed: any
      number of files written one after another are all admitted at once,
      and the gate ends as it started. */
  lemma {:induction false} ReturnedLeasesAdmitEveryone(g: Gate, first: nat, n: nat)
    requires Invariant(g) && g.running < g.limit
    ensures Allowed(g, OneAtATime(first, n)) && NeverQueues(g, OneAtATime(first, n))
    ensures Replay(g, OneAtATime(first, n)) == g
    decreases n
  {
    if n > 0 {
      var ops := OneAtATime(first, n);
      var rest := OneAtATime(first + 1, n - 1);
      ReturnedLeasesAdmitEveryone(g, first + 1, n - 1);
      var g1 := Apply(g, Request(first));
      assert g1 == g.(running := g.running + 1);
      assert Apply(g1, Finish) == g;
      assert ops[0] == Request(first) && ops[1..] == [Finish] + rest;
      assert ops[1..][0] == Finish && ops[1..][1..] == rest;
    }
  }

  function CountFinishes(ops: seq<Op>): nat
  {
    if |ops| == 0 then 0 else (if ops[0].Finish? then 1 else 0) + CountFinishes(ops[1..])
  }

  function CountRequests(ops: seq<Op>): nat
  {
    if |ops| == 0 then 0 else (if ops[0].Request? then 1 else 0) + CountRequests(ops[1..])
  }

  lemma {:induction false} CountsOfAppend(ops: seq<Op>, op: Op)
    ensures CountFinishes(ops + [op]) == CountFinishes(ops) + (if op.Finish? then 1 else 0)
    ensures CountRequests(ops + [op]) == CountRequests(ops) + (if op.Request? then 1 else 0)
  {
    if |ops| > 0 {
      assert (ops + [op])[1..] == ops[1..] + [op];
      CountsOfAppend(ops[1..], op);
    }
  }

  /** Replays a schedule of requests and stream ends from a fresh gate.
      `started` lists the callers whose stream was created, in creation order;
      `waited` lists the callers that had to queue, in arrival order; `woken`
      lists the queued callers admitted later, in admission order. */
  method Run(limit: nat, ops: seq<Op>) returns (g: Gate, started: seq<WaiterId>, waited: seq<WaiterId>, woken: seq<WaiterId>)
    requires Allowed(NewGate(limit), ops)
    ensures Invariant(g) && g.limit == limit
    ensures g.running == |started| - CountFinishes(ops)
    ensures |started| + |g.queue| == CountRequests(ops)
    ensures woken + g.queue == waited
    ensures forall k :: 0 <= k < |started| ==> Request(started[k]) in ops
  {
    g := NewGate(limit);
    started, waited, woken := [], [], [];
    var i := 0;
    while i < |ops|
      invariant 0 <= i <= |ops|
      invariant Invariant(g) && g.limit == limit
      invariant Allowed(g, ops[i..])
      invariant g.running == |started| - CountFinishes(ops[..i])
      invariant |started| + |g.queue| == CountRequests(ops[..i])
      invariant woken + g.queue == waited
      invariant forall k :: 0 <= k < |started| ==> Request(started[k]) in ops[..i]
      invariant forall k :: 0 <= k < |waited| ==> Request(waited[k]) in ops[..i]
    {
      assert ops[..i + 1] == ops[..i] + [ops[i]];
      CountsOfAppend(ops[..i], ops[i]);
      assert ops[i..][1..] == ops[i + 1..];
      match ops[i] {
        case Request(id) =>
          var (g', admission) := Acquire(g, id);
          g := g';
          if admission == Granted {
            started := started + [id];
          } else {
            waited := waited + [id];
          }
        case Finish =>
          var (g', next) := Release(g);
          if next.Some? {
            assert next.value == waited[|woken|];
            woken := woken + [next.value];
            started := started + [next.value];
          }
          g := g';
      }
      i := i + 1;
    }
    assert ops[..i] == ops;
  }
}

=== FILE: hash_indexer.dfy ===
/** The inventory builder: a recursive walk of a directory tree that lists
    every regular file with the digest of its content, the streaming digest
    computation, and the immediate-subdirectory listing used to discover the
    per-client storage roots. */
module HashIndexer {
  import opened Types

  /** What a `stat` that follows symbolic links says about an entry that is
      neither a directory nor a regular file. */
  datatype Stat = StatDirectory | StatNotDirectory | StatThrows

  /** A directory tree as the walker sees it. Directory entries keep the
      order in which the listing returns them. */
  datatype Node =
    | Dir(entries: seq<Entry>)
    | UnreadableDir
    | File(chunks: seq<Bytes>)
    | UnreadableFile
    | Special(stat: Stat)

  datatype Entry = Entry(name: Name, node: Node)

  /** The listing reports the entry as a directory. */
  predicate IsDirectoryEntry(n: Node)
  {
    n.Dir? || n.UnreadableDir?
  }

  /** The listing reports the entry as a regular file. */
  predicate IsFileEntry(n: Node)
  {
    n.File? || n.UnreadableFile?
  }

  function Names(es: seq<Entry>): set<Name>
  {
    set i | 0 <= i < |es| :: es[i].name
  }

  ghost predicate DistinctNames(es: seq<Entry>)
  {
    forall i, j :: 0 <= i < j < |es| ==> es[i].name != es[j].name
  }

  /** A tree a file system can hold: names are unique within a directory and
      a read stream never delivers an empty chunk. */
  ghost predicate WellFormed(n: Node)
  {
    match n
    case Dir(es) => DistinctNames(es) && forall i :: 0 <= i < |es| ==> WellFormed(es[i].node)
    case File(chunks) => forall i :: 0 <= i < |chunks| ==> |chunks[i]| > 0
    case _ => true
  }

  /** No directory listing and no file read anywhere in the tree fails. */
  predicate Healthy(n: Node)
  {
    match n
    case Dir(es) => forall i :: 0 <= i < |es| ==> Healthy(es[i].node)
    case UnreadableDir => false
    case UnreadableFile => false
    case _ => true
  }

  /** The first entry of a listing with the given name. */
  function Child(es: seq<Entry>, name: Name): Option<Node>
  {
    if |es| == 0 then None
    else if es[0].name == name then Some(es[0].node)
    else Child(es[1..], name)
  }

  /** The chunks of the readable regular file at `rel`, resolved from `n`
      through readable directories. */
  function FileAt(n: Node, rel: Path): Option<seq<Bytes>>
    decreases rel
  {
    if |rel| == 0 then
      (if n.File? then Some(n.chunks) else None)
    else if n.Dir? then
      match Child(n.entries, rel[0])
      case Some(c) => FileAt(c, rel[1..])
      case None => None
    else None
  }

  /** A name found in a listing is that of one of its entries. */
  lemma {:induction false} ChildIsEntry(es: seq<Entry>, name: Name)
    ensures Child(es, name).Some? ==>
              exists i :: 0 <= i < |es| && es[i].name == name && es[i].node == Child(es, name).value
  {
    if |es| > 0 && es[0].name != name {
      ChildIsEntry(es[1..], name);
      if Child(es, name).Some? {
        var i :| 0 <= i < |es| - 1 && es[1..][i].name == name && es[1..][i].node == Child(es, name).value;
        assert es[i + 1] == es[1..][i];
      }
    }
  }

  /** Every file a well-formed tree holds is read in non-empty chunks. */
  lemma {:induction false} WellFormedFileChunks(n: Node, rel: Path)
    requires WellFormed(n) && FileAt(n, rel).Some?
    ensures forall i :: 0 <= i < |FileAt(n, rel).value| ==> |FileAt(n, rel).value[i]| > 0
    decreases rel
  {
    if |rel| > 0 {
      ChildIsEntry(n.entries, rel[0]);
      var c := Child(n.entries, rel[0]).value;
      var i :| 0 <= i < |n.entries| && n.entries[i].node == c;
      WellFormedFileChunks(c, rel[1..]);
    }
  }

  // ---------------------------------------------------------------------
  // Digest of one file

  /** The one-shot digest of a file's whole content. */
  function DigestOf(chunks: seq<Bytes>, H: Bytes -> Digest): Digest
  {
    H(Concat(chunks))
  }

  /** The running state of an incremental hash: the bytes absorbed so far. */
  datatype HashState = HashState(absorbed: Bytes)

  function Update(s: HashState, chunk: Bytes): HashState
  {
    HashState(s.absorbed + chunk)
  }

  /** Reads the file chunk by chunk, folding each chunk into one running hash
      state. The result depends only on the whole content, not on how the
      reads were chunked; a read error rejects the computation. */
  method CalculateFileHash(n: Node, H: Bytes -> Digest) returns (r: Result<Digest>)
    ensures r.Success? <==> n.File?
    ensures n.File? ==> r.value == DigestOf(n.chunks, H)
    ensures !n.File? ==> r == Failure(ReadFailed)
  {
    if !n.File? {
      return Failure(ReadFailed);
    }
    var chunks := n.chunks;
    var state := HashState([]);
    var i := 0;
    while i < |chunks|
      invariant 0 <= i <= |chunks|
      invariant state.absorbed == Concat(chunks[..i])
    {
      assert chunks[..i + 1] == chunks[..i] + [chunks[i]];
      ConcatAppend(chunks[..i], [chunks[i]]);
      state := Update(state, chunks[i]);
      i := i + 1;
    }
    assert chunks[..i] == chunks;
    return Success(H(state.absorbed));
  }

  // ---------------------------------------------------------------------
  // The recursive walk

  /** Lists the regular files below the directory `n`, whose path relative to
      the walk's root is `dir`. Listing `n` fails unless it is a readable
      directory. */
  function Walk(n: Node, dir: Path, H: Bytes -> Digest): Result<seq<FileRecord>>
    decreases n
  {
    match n
    case Dir(es) => WalkEntries(es, dir, H)
    case _ => Failure(ReadDirFailed)
  }

  /** Visits the entries in listing order: a directory is recursed into, a
      regular file yields one record, anything else is skipped. The first
      failure stops the walk. */
  function WalkEntries(es: seq<Entry>, dir: Path, H: Bytes -> Digest): Result<seq<FileRecord>>
    decreases es
  {
    if |es| == 0 then Success([])
    else
      var here := dir + [es[0].name];
      var head :=
        if IsDirectoryEntry(es[0].node) then Walk(es[0].node, here, H)
        else if es[0].node.File? then Success([FileRecord(here, DigestOf(es[0].node.chunks, H))])
        else if es[0].node.UnreadableFile? then Failure(ReadFailed)
        else Success([]);
      match head
      case Failure(e) => Failure(e)
      case Success(first) =>
        match WalkEntries(es[1..], dir, H)
        case Failure(e) => Failure(e)
        case Success(rest) => Success(first + rest)
  }

  /** `r` names, relative to the root of `n` placed at `dir`, a readable
      regular file of `n`, with the digest of that file's content. */
  ghost predicate Describes(n: Node, dir: Path, r: FileRecord, H: Bytes -> Digest)
  {
    && |r.path| > |dir|
    && r.path[..|dir|] == dir
    && match FileAt(n, r.path[|dir|..])
       case Some(chunks) => r.hash == DigestOf(chunks, H)
       case None => false
  }

  /** The walk succeeds exactly when the root is a directory and no listing or
      read anywhere below it fails. */
  lemma {:induction false} WalkSucceedsIffHealthy(n: Node, dir: Path, H: Bytes -> Digest)
    ensures Walk(n, dir, H).Success? <==> n.Dir? && Healthy(n)
    decreases n
  {
    if n.Dir? {
      WalkEntriesSucceedsIffHealthy(n.entries, dir, H);
    }
  }

  lemma {:induction false} WalkEntriesSucceedsIffHealthy(es: seq<Entry>, dir: Path, H: Bytes -> Digest)
    ensures WalkEntries(es, dir, H).Success? <==> forall i :: 0 <= i < |es| ==> Healthy(es[i].node)
    decreases es
  {
    if |es| > 0 {
      var c := es[0].node;
      WalkEntriesSucceedsIffHealthy(es[1..], dir, H);
      if IsDirectoryEntry(c) {
        WalkSucceedsIffHealthy(c, dir + [es[0].name], H);
      }
      assert forall i :: 1 <= i < |es| ==> es[i] == es[1..][i - 1];
    }
  }

  /** Every record of a walk names a file of the tree at its path relative to
      the root, with that file's digest, and no path occurs twice. */
  lemma {:induction false} WalkSound(n: Node, dir: Path, H: Bytes -> Digest)
    requires WellFormed(n)
    requires Walk(n, dir, H).Success?
    ensures DistinctPaths(Walk(n, dir, H).value)
    ensures forall r :: r in Walk(n, dir, H).value ==> Describes(n, dir, r, H)
    decreases n
  {
    var es := n.entries;
    WalkEntriesSound(es, dir, H);
    var recs := Walk(n, dir, H).value;
    forall r | r in recs
      ensures Describes(n, dir, r, H)
    {
      assert r.path[|dir|..] == [r.path[|dir|]] + r.path[|dir| + 1..];
    }
  }

  lemma {:induction false} WalkEntriesSound(es: seq<Entry>, dir: Path, H: Bytes -> Digest)
    requires DistinctNames(es)
    requires forall i :: 0 <= i < |es| ==> WellFormed(es[i].node)
    requires WalkEntries(es, dir, H).Success?
    ensures DistinctPaths(WalkEntries(es, dir, H).value)
    ensures forall r :: r in WalkEntries(es, dir, H).value ==>
              && |r.path| > |dir|
              && r.path[..|dir|] == dir
              && r.path[|dir|] in Names(es)
              && match Child(es, r.path[|dir|])
                 case Some(c) =>
                   (match FileAt(c, r.path[|dir| + 1..])
                    case Some(chunks) => r.hash == DigestOf(chunks, H)
                    case None => false)
                 case None => false
    decreases es
  {
    if |es| > 0 {
      var e := es[0];
      var here := dir + [e.name];
      var tail := es[1..];
      assert DistinctNames(tail) && forall i :: 0 <= i < |tail| ==> WellFormed(tail[i].node) by {
        assert forall i :: 0 <= i < |tail| ==> tail[i] == es[i + 1];
      }
      assert e.name !in Names(tail) by {
        assert forall i :: 0 <= i < |tail| ==> tail[i] == es[i + 1];
      }
      assert Names(tail) <= Names(es) by {
        assert forall i :: 0 <= i < |tail| ==> tail[i] == es[i + 1];
      }
      WalkEntriesSound(tail, dir, H);
      var rest := WalkEntries(tail, dir, H).value;
      var first: seq<FileRecord>;
      if IsDirectoryEntry(e.node) {
        WalkSound(e.node, here, H);
        first := Walk(e.node, here, H).value;
        forall r | r in first
          ensures |r.path| > |dir| && r.path[|dir|] == e.name && r.path[..|dir|] == dir
          ensures r.path[|dir|..] == [e.name] + r.path[|here|..]
        {
          assert r.path[..|here|] == here;
          assert r.path[..|dir|] == r.path[..|here|][..|dir|];
        }
      } else if e.node.File? {
        first := [FileRecord(here, DigestOf(e.node.chunks, H))];
        assert here[|dir| + 1..] == [];
      } else {
        first := [];
      }
      assert WalkEntries(es, dir, H).value == first + rest;
      // records of the first entry all lie below its name, those of the
      // remaining entries below other names
      forall i, j | 0 <= i < |first| && 0 <= j < |rest|
        ensures first[i].path != rest[j].path
      {
        assert first[i].path[|dir|] == e.name;
        assert rest[j].path[|dir|] in Names(tail);
      }
      forall r | r in rest
        ensures Child(es, r.path[|dir|]) == Child(tail, r.path[|dir|])
      {
        assert r.path[|dir|] != e.name;
      }
    }
  }

  /** Where a name first occurs in a listing (the listing's length if it
      does not occur). */
  function Position(es: seq<Entry>, name: Name): (k: nat)
    ensures k <= |es|
    ensures k < |es| ==> es[k].name == name
    ensures forall i :: 0 <= i < k ==> es[i].name != name
  {
    if |es| == 0 then 0
    else if es[0].name == name then 0
    else 1 + Position(es[1..], name)
  }

  /** Every record of a walk lies below one of the listed names. */
  lemma WalkEntriesBelow(es: seq<Entry>, dir: Path, H: Bytes -> Digest)
    requires DistinctNames(es)
    requires forall i :: 0 <= i < |es| ==> WellFormed(es[i].node)
    requires WalkEntries(es, dir, H).Success?
    ensures var recs := WalkEntries(es, dir, H).value;
            forall a :: 0 <= a < |recs| ==> |recs[a].path| > |dir| && recs[a].path[|dir|] in Names(es)
  {
    WalkEntriesSound(es, dir, H);
    var recs := WalkEntries(es, dir, H).value;
    assert forall a :: 0 <= a < |recs| ==> recs[a] in recs;
  }

  /** A walk of a listing is the records below its first entry followed by
      the walk of the remaining entries. */
  lemma WalkEntriesSplit(es: seq<Entry>, dir: Path, H: Bytes -> Digest)
    requires |es| > 0
    requires WellFormed(es[0].node)
    requires WalkEntries(es, dir, H).Success?
    ensures WalkEntries(es[1..], dir, H).Success?
    ensures var recs := WalkEntries(es, dir, H).value;
            var rest := WalkEntries(es[1..], dir, H).value;
            && |rest| <= |recs|
            && recs[|recs| - |rest|..] == rest
            && forall a :: 0 <= a < |recs| - |rest| ==> |recs[a].path| > |dir| && recs[a].path[|dir|] == es[0].name
  {
    var e := es[0];
    var here := dir + [e.name];
    var rest := WalkEntries(es[1..], dir, H).value;
    var first: seq<FileRecord>;
    if IsDirectoryEntry(e.node) {
      WalkSound(e.node, here, H);
      first := Walk(e.node, here, H).value;
      forall r | r in first
        ensures |r.path| > |dir| && r.path[|dir|] == e.name
      {
        assert r.path[..|here|] == here;
      }
    } else if e.node.File? {
      first := [FileRecord(here, DigestOf(e.node.chunks, H))];
    } else {
      first := [];
    }
    var recs := WalkEntries(es, dir, H).value;
    assert recs == first + rest;
    assert recs[|first|..] == rest;
    forall a | 0 <= a < |first|
      ensures |recs[a].path| > |dir| && recs[a].path[|dir|] == e.name
    {
      assert recs[a] == first[a] && first[a] in first;
    }
  }

  /** The records lie below listed names, in the order of the listing. */
  ghost predicate InListingOrder(es: seq<Entry>, dir: Path, recs: seq<FileRecord>)
  {
    && (forall a :: 0 <= a < |recs| ==> |recs[a].path| > |dir|)
    && forall a, b :: 0 <= a < b < |recs| ==>
         Position(es, recs[a].path[|dir|]) <= Position(es, recs[b].path[|dir|])
  }

  lemma InListingOrderCons(es: seq<Entry>, dir: Path, recs: seq<FileRecord>, rest: seq<FileRecord>)
    requires |es| > 0 && es[0].name !in Names(es[1..])
    requires |rest| <= |recs| && recs[|recs| - |rest|..] == rest
    requires forall a :: 0 <= a < |recs| - |rest| ==> |recs[a].path| > |dir| && recs[a].path[|dir|] == es[0].name
    requires forall a :: 0 <= a < |rest| ==> |rest[a].path| > |dir| && rest[a].path[|dir|] in Names(es[1..])
    requires InListingOrder(es[1..], dir, rest)
    ensures InListingOrder(es, dir, recs)
  {
    var tail := es[1..];
    var k := |recs| - |rest|;
    forall a | k <= a < |recs|
      ensures |recs[a].path| > |dir|
      ensures Position(es, recs[a].path[|dir|]) == 1 + Position(tail, rest[a - k].path[|dir|])
    {
      assert recs[a] == rest[a - k];
    }
    forall a, b | 0 <= a < b < |recs|
      ensures Position(es, recs[a].path[|dir|]) <= Position(es, recs[b].path[|dir|])
    {
      if k <= a {
        assert Position(tail, rest[a - k].path[|dir|]) <= Position(tail, rest[b - k].path[|dir|]);
      }
    }
  }

  /** The walk lists records in the order of the directory listing: the
      records below an earlier entry all come before those below a later one,
      so each subdirectory's records are spliced in at its own place. */
  lemma {:induction false} WalkFollowsListing(es: seq<Entry>, dir: Path, H: Bytes -> Digest)
    requires DistinctNames(es)
    requires forall i :: 0 <= i < |es| ==> WellFormed(es[i].node)
    requires WalkEntries(es, dir, H).Success?
    ensures InListingOrder(es, dir, WalkEntries(es, dir, H).value)
    decreases es
  {
    if |es| > 0 {
      var tail := es[1..];
      assert DistinctNames(tail) && forall i :: 0 <= i < |tail| ==> WellFormed(tail[i].node) by {
        assert forall i :: 0 <= i < |tail| ==> tail[i] == es[i + 1];
      }
      assert es[0].name !in Names(tail) by {
        assert forall i :: 0 <= i < |tail| ==> tail[i] == es[i + 1];
      }
      WalkEntriesSplit(es, dir, H);
      WalkFollowsListing(tail, dir, H);
      WalkEntriesBelow(tail, dir, H);
      InListingOrderCons(es, dir, WalkEntries(es, dir, H).value, WalkEntries(tail, dir, H).value);
    }
  }

  /** Every readable regular file below the root yields a record with its
      path relative to the root. */
  lemma {:induction false} WalkComplete(n: Node, dir: Path, rel: Path, H: Bytes -> Digest)
    requires Walk(n, dir, H).Success?
    requires |rel| > 0 && FileAt(n, rel).Some?
    ensures exists r :: r in Walk(n, dir, H).value && r.path == dir + rel
    decreases n
  {
    WalkEntriesComplete(n.entries, dir, rel, H);
  }

  lemma {:induction false} WalkEntriesComplete(es: seq<Entry>, dir: Path, rel: Path, H: Bytes -> Digest)
    requires WalkEntries(es, dir, H).Success?
    requires |rel| > 0 && Child(es, rel[0]).Some? && FileAt(Child(es, rel[0]).value, rel[1..]).Some?
    ensures exists r :: r in WalkEntries(es, dir, H).value && r.path == dir + rel
    decreases es
  {
    var e := es[0];
    var here := dir + [e.name];
    var all := WalkEntries(es, dir, H).value;
    if e.name == rel[0] {
      assert dir + rel == here + rel[1..];
      if IsDirectoryEntry(e.node) {
        WalkComplete(e.node, here, rel[1..], H);
        var r :| r in Walk(e.node, here, H).value && r.path == here + rel[1..];
        assert r in all;
      } else {
        assert rel[1..] == [];
        assert FileRecord(here, DigestOf(e.node.chunks, H)) in all;
      }
    } else {
      WalkEntriesComplete(es[1..], dir, rel, H);
      var r :| r in WalkEntries(es[1..], dir, H).value && r.path == dir + rel;
      assert r in all;
    }
  }

  /** The inventory of a well-formed tree as a path -> digest map: its keys
      are exactly the paths of the tree's regular files and each maps to the
      digest of that file's content; converting the walk's list to the map
      loses no record. */
  lemma InventoryMapOfTree(root: Node, H: Bytes -> Digest)
    requires WellFormed(root)
    requires Walk(root, [], H).Success?
    ensures DistinctPaths(Walk(root, [], H).value)
    ensures |ToMap(Walk(root, [], H).value)| == |Walk(root, [], H).value|
    ensures forall p :: p in ToMap(Walk(root, [], H).value) <==> |p| > 0 && FileAt(root, p).Some?
    ensures forall p :: p in ToMap(Walk(root, [], H).value) ==>
              ToMap(Walk(root, [], H).value)[p] == DigestOf(FileAt(root, p).value, H)
  {
    var recs := Walk(root, [], H).value;
    WalkSound(root, [], H);
    ToMapLosesNothing(recs);
    var m := ToMap(recs);
    forall p | p in m
      ensures |p| > 0 && FileAt(root, p).Some? && m[p] == DigestOf(FileAt(root, p).value, H)
    {
      var i :| 0 <= i < |recs| && recs[i].path == p;
      assert Describes(root, [], recs[i], H);
      assert p[0..] == p;
    }
    forall p | |p| > 0 && FileAt(root, p).Some?
      ensures p in m
    {
      WalkComplete(root, [], p, H);
      var r :| r in recs && r.path == [] + p;
      assert [] + p == p;
      var i :| 0 <= i < |recs| && recs[i] == r;
    }
  }

  /** Digest stability: two trees with the same regular files at the same
      paths, whatever the order of their listings, give the same inventory. */
  lemma InventoryIndependentOfListingOrder(t1: Node, t2: Node, H: Bytes -> Digest)
    requires WellFormed(t1) && WellFormed(t2)
    requires Walk(t1, [], H).Success? && Walk(t2, [], H).Success?
    requires forall p :: FileAt(t1, p) == FileAt(t2, p)
    ensures ToMap(Walk(t1, [], H).value) == ToMap(Walk(t2, [], H).value)
  {
    InventoryMapOfTree(t1, H);
    InventoryMapOfTree(t2, H);
  }

  // ---------------------------------------------------------------------
  // Immediate subdirectories

  /** The entry is a directory according to a `stat` that follows links. */
  predicate StatIsDirectory(n: Node)
  {
    n.Dir? || n.UnreadableDir? || (n.Special? && n.stat == StatDirectory)
  }

  /** Reference definition: the names of the directory entries, in order. */
  function DirectoryNames(es: seq<Entry>): seq<Name>
  {
    if |es| == 0 then []
    else DirectoryNames(es[..|es| - 1])
         + (if StatIsDirectory(es[|es| - 1].node) then [es[|es| - 1].name] else [])
  }

  lemma {:induction false} DirectoryNamesMembers(es: seq<Entry>)
    ensures |DirectoryNames(es)| <= |es|
    ensures forall name :: name in DirectoryNames(es) <==>
              exists i :: 0 <= i < |es| && es[i].name == name && StatIsDirectory(es[i].node)
  {
    if |es| > 0 {
      var init := es[..|es| - 1];
      DirectoryNamesMembers(init);
      assert forall i :: 0 <= i < |init| ==> init[i] == es[i];
    }
  }

  /** Lists the immediate children of a directory and keeps those that are
      directories, in listing order, without recursing. A failing listing, or
      a `stat` that throws on any child, rejects the whole call. */
  method GetFolders(n: Node) returns (r: Result<seq<Name>>)
    ensures r.Success? <==>
              n.Dir? && forall i :: 0 <= i < |n.entries| ==> n.entries[i].node != Special(StatThrows)
    ensures r.Success? ==>
              && |r.value| <= |n.entries|
              && forall name :: name in r.value <==>
                   exists i :: 0 <= i < |n.entries| && n.entries[i].name == name
                               && StatIsDirectory(n.entries[i].node)
    ensures r.Success? ==> r.value == DirectoryNames(n.entries)
  {
    if !n.Dir? {
      return Failure(ReadDirFailed);
    }
    var es := n.entries;
    var folders: seq<Name> := [];
    var i := 0;
    while i < |es|
      invariant 0 <= i <= |es|
      invariant folders == DirectoryNames(es[..i])
      invariant forall k :: 0 <= k < i ==> es[k].node != Special(StatThrows)
    {
      assert es[..i + 1][..i] == es[..i];
      if es[i].node == Special(StatThrows) {
        return Failure(StatFailed);
      }
      if StatIsDirectory(es[i].node) {
        folders := folders + [es[i].name];
      }
      i := i + 1;
    }
    assert es[..i] == es;
    DirectoryNamesMembers(es);
    return Success(folders);
  }
}

=== FILE: planner_legacy.dfy ===
/** The server side of the legacy protocol. After the client identifier is
    checked, the client's storage is walked afresh for every request; each
    unchanged file is answered with one zero-length chunk, every other file
    with its chunks in order, and there is neither a delete nor a completion
    message. The zero-length answers are written synchronously while the
    reads are being started, so they come first; the reads' chunks follow,
    file after file in inventory order (one possible interleaving). */
module PlannerLegacy {
  import opened Types
  import opened HashIndexer
  import opened Protocol

  /** One zero-length chunk per unchanged file, in inventory order. */
  function UnchangedMessages(info: seq<FileRecord>, recs: seq<FileRecord>): seq<LegacyMsg>
  {
    if |recs| == 0 then []
    else (if Unchanged(info, recs[0]) then [LegacyMsg(recs[0].path, [])] else [])
         + UnchangedMessages(info, recs[1..])
  }

  /** One message per chunk, in file order. */
  function ChunkMessages(p: Path, chunks: seq<Bytes>): (r: seq<LegacyMsg>)
    ensures |r| == |chunks|
    ensures forall i :: 0 <= i < |r| ==> r[i] == LegacyMsg(p, chunks[i])
  {
    seq(|chunks|, i requires 0 <= i < |chunks| => LegacyMsg(p, chunks[i]))
  }

  /** The chunks of every file that is not unchanged, and whether a read
      failed (which stops the messages). */
  function LegacyTransfers(info: seq<FileRecord>, recs: seq<FileRecord>, root: Node): (seq<LegacyMsg>, bool)
  {
    if |recs| == 0 then ([], false)
    else if Unchanged(info, recs[0]) then LegacyTransfers(info, recs[1..], root)
    else
      match FileAt(root, recs[0].path)
      case None => ([], true)
      case Some(chunks) =>
        var (rest, failed) := LegacyTransfers(info, recs[1..], root);
        (ChunkMessages(recs[0].path, chunks) + rest, failed)
  }

  /** The answer once the client's storage `root` is known: the storage is
      walked, and a failed walk abandons the call before any message. */
  function PlanLegacy(info: seq<FileRecord>, root: Node, H: Bytes -> Digest): (r: Reply<LegacyMsg>)
    ensures !r.Rejected?
    ensures Walk(root, [], H).Failure? ==> r == Aborted([])
  {
    match Walk(root, [], H)
    case Failure(_) => Aborted([])
    case Success(recs) =>
      var (transfers, failed) := LegacyTransfers(info, recs, root);
      var msgs := UnchangedMessages(info, recs) + transfers;
      if failed then Aborted(msgs) else Ended(msgs)
  }

  /** The request handler: a bad client identifier ends the call with
      INVALID_ARGUMENT before any message; otherwise the inventory is
      recomputed from that client's storage directory for this request, so
      every message names a file found there. */
  function SyncFilesLegacy(clientId: Option<MetadataValue>, storage: map<string, Node>,
                           info: seq<FileRecord>, H: Bytes -> Digest): (r: Reply<LegacyMsg>)
    ensures r.Rejected? <==> !CheckClientId(clientId).Accepted?
    ensures r.Ended? && WellFormed(StorageRoot(storage, CheckClientId(clientId).name)) ==>
              forall m :: m in r.msgs ==>
                FileAt(StorageRoot(storage, CheckClientId(clientId).name), m.path).Some?
  {
    match CheckClientId(clientId)
    case Accepted(name) =>
      var root := StorageRoot(storage, name);
      MessagesNameServerFiles(info, root, H);
      PlanLegacy(info, root, H)
    case _ => Rejected
  }

  lemma {:induction false} UnchangedMessagesNameRecords(info: seq<FileRecord>, recs: seq<FileRecord>)
    ensures forall m :: m in UnchangedMessages(info, recs) ==> m.path in PathsOf(recs) && m.data == []
  {
    if |recs| > 0 {
      UnchangedMessagesNameRecords(info, recs[1..]);
      assert PathsOf(recs[1..]) <= PathsOf(recs) by {
        assert forall i :: 0 <= i < |recs| - 1 ==> recs[1..][i] == recs[i + 1];
      }
    }
  }

  lemma {:induction false} TransfersNameReadableFiles(info: seq<FileRecord>, recs: seq<FileRecord>, root: Node)
    ensures forall m :: m in LegacyTransfers(info, recs, root).0 ==> FileAt(root, m.path).Some?
    ensures LegacyTransfers(info, recs, root).1 <==>
              exists k :: 0 <= k < |recs| && !Unchanged(info, recs[k]) && FileAt(root, recs[k].path).None?
  {
    if |recs| > 0 {
      TransfersNameReadableFiles(info, recs[1..], root);
      assert forall k :: 1 <= k < |recs| ==> recs[k] == recs[1..][k - 1];
    }
  }

  /** Every message of an ended answer names a file of the walked root. */
  lemma MessagesNameServerFiles(info: seq<FileRecord>, root: Node, H: Bytes -> Digest)
    ensures PlanLegacy(info, root, H).Ended? && WellFormed(root) ==>
              forall m :: m in PlanLegacy(info, root, H).msgs ==> FileAt(root, m.path).Some?
  {
    if Walk(root, [], H).Success? {
      var recs := Walk(root, [], H).value;
      UnchangedMessagesNameRecords(info, recs);
      TransfersNameReadableFiles(info, recs, root);
      if WellFormed(root) {
        WalkReadsSucceed(root, H);
        forall m | m in UnchangedMessages(info, recs)
          ensures FileAt(root, m.path).Some?
        {
          var k :| 0 <= k < |recs| && recs[k].path == m.path;
          assert recs[k] in Walk(root, [], H).value;
        }
      }
    }
  }

  /** The files a successful walk of a well-formed tree lists can be read. */
  lemma WalkReadsSucceed(root: Node, H: Bytes -> Digest)
    ensures WellFormed(root) && Walk(root, [], H).Success? ==>
              forall r :: r in Walk(root, [], H).value ==> FileAt(root, r.path).Some?
  {
    if WellFormed(root) && Walk(root, [], H).Success? {
      WalkSound(root, [], H);
      forall r | r in Walk(root, [], H).value
        ensures FileAt(root, r.path).Some?
      {
        assert Describes(root, [], r, H);
        assert r.path[0..] == r.path;
      }
    }
  }

  /** For a well-formed storage the call ends normally exactly when the walk
      succeeds, that is when the root is a readable directory and nothing in
      it fails to list or read. */
  lemma PlanLegacyEndsIffHealthy(info: seq<FileRecord>, root: Node, H: Bytes -> Digest)
    requires WellFormed(root)
    ensures PlanLegacy(info, root, H).Ended? <==> root.Dir? && Healthy(root)
  {
    WalkSucceedsIffHealthy(root, [], H);
    if Walk(root, [], H).Success? {
      var recs := Walk(root, [], H).value;
      WalkReadsSucceed(root, H);
      TransfersNameReadableFiles(info, recs, root);
    }
  }

  // ---------------------------------------------------------------------
  // What the answer says about each path

  /** The messages that name `p`, in order. */
  function ProjectLegacy(msgs: seq<LegacyMsg>, p: Path): (r: seq<LegacyMsg>)
  {
    if |msgs| == 0 then []
    else (if msgs[0].path == p then [msgs[0]] else []) + ProjectLegacy(msgs[1..], p)
  }

  lemma {:induction false} ProjectLegacyAppend(a: seq<LegacyMsg>, b: seq<LegacyMsg>, p: Path)
    ensures ProjectLegacy(a + b, p) == ProjectLegacy(a, p) + ProjectLegacy(b, p)
  {
    if |a| > 0 {
      assert (a + b)[0] == a[0] && (a + b)[1..] == a[1..] + b;
      ProjectLegacyAppend(a[1..], b, p);
    } else {
      assert a + b == b;
    }
  }

  lemma {:induction false} ProjectChunkMessages(q: Path, chunks: seq<Bytes>, p: Path)
    ensures ProjectLegacy(ChunkMessages(q, chunks), p) == if q == p then ChunkMessages(q, chunks) else []
  {
    if |chunks| > 0 {
      assert ChunkMessages(q, chunks)[1..] == ChunkMessages(q, chunks[1..]);
      ProjectChunkMessages(q, chunks[1..], p);
      assert ChunkMessages(q, chunks) == [LegacyMsg(q, chunks[0])] + ChunkMessages(q, chunks[1..]);
    }
  }

  lemma {:induction false} ProjectUnchanged(info: seq<FileRecord>, recs: seq<FileRecord>, p: Path)
    requires DistinctPaths(recs)
    ensures ProjectLegacy(UnchangedMessages(info, recs), p) ==
              match RecordFor(recs, p)
              case Some(rec) => if Unchanged(info, rec) then [LegacyMsg(p, [])] else []
              case None => []
  {
    if |recs| > 0 {
      var x, tail := recs[0], recs[1..];
      var rest := UnchangedMessages(info, tail);
      DistinctTail(recs);
      RecordForCons(recs, p);
      ProjectUnchanged(info, tail, p);
      if Unchanged(info, x) {
        assert UnchangedMessages(info, recs) == [LegacyMsg(x.path, [])] + rest;
        ProjectLegacyAppend([LegacyMsg(x.path, [])], rest, p);
        ProjectLegacySingle(LegacyMsg(x.path, []), p);
      } else {
        assert UnchangedMessages(info, recs) == [] + rest == rest;
      }
    }
  }

  lemma ProjectLegacySingle(m: LegacyMsg, p: Path)
    ensures ProjectLegacy([m], p) == if m.path == p then [m] else []
  {
  }

  lemma {:induction false} ProjectLegacyTransfers(info: seq<FileRecord>, recs: seq<FileRecord>, root: Node, p: Path)
    requires DistinctPaths(recs)
    requires !LegacyTransfers(info, recs, root).1
    ensures ProjectLegacy(LegacyTransfers(info, recs, root).0, p) ==
              match RecordFor(recs, p)
              case Some(rec) =>
                if Unchanged(info, rec) then []
                else (match FileAt(root, p)
                      case Some(chunks) => ChunkMessages(p, chunks)
                      case None => [])
              case None => []
  {
    if |recs| > 0 {
      var x, tail := recs[0], recs[1..];
      DistinctTail(recs);
      RecordForCons(recs, p);
      ProjectLegacyTransfers(info, tail, root, p);
      if !Unchanged(info, x) {
        var chunks := FileAt(root, x.path).value;
        var rest := LegacyTransfers(info, tail, root).0;
        ProjectLegacyAppend(ChunkMessages(x.path, chunks), rest, p);
        ProjectChunkMessages(x.path, chunks, p);
      }
    }
  }

  /** Per path, a completed legacy answer says: a path the walk did not list
      is never named (there is no delete message); an unchanged file gets
      exactly one zero-length chunk; any other file gets one message per
      chunk in file order, so an empty file gets none. */
  lemma PlanLegacyPerPath(info: seq<FileRecord>, root: Node, H: Bytes -> Digest, p: Path)
    requires WellFormed(root)
    requires PlanLegacy(info, root, H).Ended?
    ensures Walk(root, [], H).Success?
    ensures var msgs := PlanLegacy(info, root, H).msgs;
            match RecordFor(Walk(root, [], H).value, p)
            case None => ProjectLegacy(msgs, p) == []
            case Some(rec) =>
              if Unchanged(info, rec) then ProjectLegacy(msgs, p) == [LegacyMsg(p, [])]
              else FileAt(root, p).Some? && ProjectLegacy(msgs, p) == ChunkMessages(p, FileAt(root, p).value)
  {
    var recs := Walk(root, [], H).value;
    WalkSound(root, [], H);
    WalkReadsSucceed(root, H);
    var us := UnchangedMessages(info, recs);
    var ts := LegacyTransfers(info, recs, root).0;
    ProjectLegacyAppend(us, ts, p);
    ProjectUnchanged(info, recs, p);
    ProjectLegacyTransfers(info, recs, root, p);
  }
}

=== FILE: planner_v2.dfy ===
/** The server side of the tagged protocol: after checking the client
    identifier it compares the client's reported records with the server's
    inventory of that client's storage and answers with DELETE messages for
    client paths the server lacks, KEEP messages for unchanged files, and for
    every other server file its chunks followed by COMPLETE.

    Messages are produced in the order the handler writes them: all DELETEs
    (written in one synchronous loop), then all KEEPs (written synchronously
    while the transfers are being started), then the transfers. Transfers of
    different files run concurrently in the service; the model sends them one
    file after another, in inventory order, which is one of the possible
    interleavings (the client sink is shown to be insensitive to how paths
    interleave). */
module PlannerV2 {
  import opened Types
  import opened HashIndexer
  import opened Protocol

  /** One DELETE per client record whose path is not in the inventory, in
      request order. */
  function DeleteMessages(info: seq<FileRecord>, inv: seq<FileRecord>): seq<Msg>
  {
    if |info| == 0 then []
    else (if info[0].path in PathsOf(inv) then [] else [Delete(info[0].path)])
         + DeleteMessages(info[1..], inv)
  }

  /** One KEEP per unchanged inventory record, in inventory order. */
  function KeepMessages(info: seq<FileRecord>, inv: seq<FileRecord>): seq<Msg>
  {
    if |inv| == 0 then []
    else (if Unchanged(info, inv[0]) then [Keep(inv[0].path)] else [])
         + KeepMessages(info, inv[1..])
  }

  /** One data message per chunk, in file order. */
  function DataMessages(p: Path, chunks: seq<Bytes>): (r: seq<Msg>)
    ensures |r| == |chunks|
    ensures forall i :: 0 <= i < |r| ==> r[i] == Data(p, chunks[i])
  {
    seq(|chunks|, i requires 0 <= i < |chunks| => Data(p, chunks[i]))
  }

  /** The messages of the transfers, and whether some read failed; a failed
      read stops the stream of messages. */
  function TransferMessages(info: seq<FileRecord>, inv: seq<FileRecord>, root: Node): (seq<Msg>, bool)
  {
    if |inv| == 0 then ([], false)
    else if Unchanged(info, inv[0]) then TransferMessages(info, inv[1..], root)
    else
      match FileAt(root, inv[0].path)
      case None => ([], true)
      case Some(chunks) =>
        var (rest, failed) := TransferMessages(info, inv[1..], root);
        (DataMessages(inv[0].path, chunks) + [Complete(inv[0].path)] + rest, failed)
  }

  /** The answer to one request once the client is known: `inv` is the
      server's inventory of the client's storage and `root` that storage. */
  function PlanV2(info: seq<FileRecord>, inv: Inventory, root: Node): (r: Reply<Msg>)
    ensures !r.Rejected?
    ensures r.Aborted? <==>
              exists k :: 0 <= k < |inv| && !Unchanged(info, inv[k]) && FileAt(root, inv[k].path).None?
  {
    var (transfers, failed) := TransferMessages(info, inv, root);
    TransferFailsIffReadFails(info, inv, root);
    var msgs := DeleteMessages(info, inv) + KeepMessages(info, inv) + transfers;
    if failed then Aborted(msgs) else Ended(msgs)
  }

  /** The request handler: a bad client identifier ends the call with
      INVALID_ARGUMENT before any message; otherwise the client's cached
      inventory (empty when the server knows no such client) is compared
      with the request. */
  function SyncFilesV2(clientId: Option<MetadataValue>, cache: map<string, Inventory>,
                       storage: map<string, Node>, info: seq<FileRecord>): (r: Reply<Msg>)
    ensures r.Rejected? <==> !CheckClientId(clientId).Accepted?
    ensures CheckClientId(clientId).Accepted? && CheckClientId(clientId).name !in cache ==>
              r.Ended? && |r.msgs| == |info| && forall i :: 0 <= i < |info| ==> r.msgs[i] == Delete(info[i].path)
  {
    match CheckClientId(clientId)
    case Accepted(name) =>
      var inv: Inventory := if name in cache then cache[name] else [];
      DeleteEverything(info);
      PlanV2(info, inv, StorageRoot(storage, name))
    case _ => Rejected
  }

  lemma {:induction false} DeleteEverything(info: seq<FileRecord>)
    ensures |DeleteMessages(info, [])| == |info|
    ensures forall i :: 0 <= i < |info| ==> DeleteMessages(info, [])[i] == Delete(info[i].path)
  {
    if |info| > 0 {
      DeleteEverything(info[1..]);
    }
  }

  lemma {:induction false} TransferFailsIffReadFails(info: seq<FileRecord>, inv: seq<FileRecord>, root: Node)
    ensures TransferMessages(info, inv, root).1 <==>
              exists k :: 0 <= k < |inv| && !Unchanged(info, inv[k]) && FileAt(root, inv[k].path).None?
  {
    if |inv| > 0 {
      TransferFailsIffReadFails(info, inv[1..], root);
      assert forall k :: 1 <= k < |inv| ==> inv[k] == inv[1..][k - 1];
    }
  }

  // ---------------------------------------------------------------------
  // What the answer says about each path

  /** The messages that name `p`, in order. */
  function Project(msgs: seq<Msg>, p: Path): (r: seq<Msg>)
  {
    if |msgs| == 0 then []
    else (if msgs[0].path == p then [msgs[0]] else []) + Project(msgs[1..], p)
  }

  lemma {:induction false} ProjectAppend(a: seq<Msg>, b: seq<Msg>, p: Path)
    ensures Project(a + b, p) == Project(a, p) + Project(b, p)
  {
    if |a| > 0 {
      assert (a + b)[0] == a[0] && (a + b)[1..] == a[1..] + b;
      ProjectAppend(a[1..], b, p);
    } else {
      assert a + b == b;
    }
  }

  function Occurrences(info: seq<FileRecord>, p: Path): nat
  {
    if |info| == 0 then 0 else (if info[0].path == p then 1 else 0) + Occurrences(info[1..], p)
  }

  lemma {:induction false} ProjectDeletes(info: seq<FileRecord>, inv: seq<FileRecord>, p: Path)
    ensures p in PathsOf(inv) ==> Project(DeleteMessages(info, inv), p) == []
    ensures p !in PathsOf(inv) ==> Project(DeleteMessages(info, inv), p) == seq(Occurrences(info, p), _ => Delete(p))
  {
    if |info| > 0 {
      var head: seq<Msg> := if info[0].path in PathsOf(inv) then [] else [Delete(info[0].path)];
      ProjectDeletes(info[1..], inv, p);
      ProjectAppend(head, DeleteMessages(info[1..], inv), p);
      if p !in PathsOf(inv) && info[0].path == p {
        var n := Occurrences(info[1..], p);
        assert [Delete(p)] + seq(n, _ => Delete(p)) == seq(n + 1, _ => Delete(p));
      }
    }
  }

  lemma {:induction false} ProjectKeeps(info: seq<FileRecord>, inv: seq<FileRecord>, p: Path)
    requires DistinctPaths(inv)
    ensures Project(KeepMessages(info, inv), p) ==
              match RecordFor(inv, p)
              case Some(rec) => if Unchanged(info, rec) then [Keep(p)] else []
              case None => []
  {
    if |inv| > 0 {
      var x, tail := inv[0], inv[1..];
      var rest := KeepMessages(info, tail);
      DistinctTail(inv);
      RecordForCons(inv, p);
      ProjectKeeps(info, tail, p);
      if Unchanged(info, x) {
        assert KeepMessages(info, inv) == [Keep(x.path)] + rest;
        ProjectAppend([Keep(x.path)], rest, p);
        ProjectSingle(Keep(x.path), p);
      } else {
        assert KeepMessages(info, inv) == [] + rest == rest;
      }
    }
  }

  lemma ProjectSingle(m: Msg, p: Path)
    ensures Project([m], p) == if m.path == p then [m] else []
  {
  }

  lemma {:induction false} ProjectDataMessages(q: Path, chunks: seq<Bytes>, p: Path)
    ensures Project(DataMessages(q, chunks), p) == if q == p then DataMessages(q, chunks) else []
  {
    if |chunks| > 0 {
      assert DataMessages(q, chunks)[1..] == DataMessages(q, chunks[1..]);
      ProjectDataMessages(q, chunks[1..], p);
      assert DataMessages(q, chunks) == [Data(q, chunks[0])] + DataMessages(q, chunks[1..]);
    }
  }

  lemma {:induction false} ProjectTransfers(info: seq<FileRecord>, inv: seq<FileRecord>, root: Node, p: Path)
    requires DistinctPaths(inv)
    requires !TransferMessages(info, inv, root).1
    ensures Project(TransferMessages(info, inv, root).0, p) ==
              match RecordFor(inv, p)
              case Some(rec) =>
                if Unchanged(info, rec) then []
                else (match FileAt(root, p)
                      case Some(chunks) => DataMessages(p, chunks) + [Complete(p)]
                      case None => [])
              case None => []
  {
    if |inv| > 0 {
      var x, tail := inv[0], inv[1..];
      DistinctTail(inv);
      RecordForCons(inv, p);
      ProjectTransfers(info, tail, root, p);
      if !Unchanged(info, x) {
        ProjectOneTransfer(x.path, FileAt(root, x.path).value, TransferMessages(info, tail, root).0, p);
      }
    }
  }

  /** The messages of one file's transfer name only that file. */
  lemma {:induction false} ProjectOneTransfer(q: Path, chunks: seq<Bytes>, rest: seq<Msg>, p: Path)
    ensures Project(DataMessages(q, chunks) + [Complete(q)] + rest, p) ==
              (if q == p then DataMessages(q, chunks) + [Complete(q)] else []) + Project(rest, p)
  {
    ProjectAppend(DataMessages(q, chunks) + [Complete(q)], rest, p);
    ProjectAppend(DataMessages(q, chunks), [Complete(q)], p);
    ProjectDataMessages(q, chunks, p);
  }

  /** Per path, a completed answer says: a path missing from the inventory
      gets one DELETE per client record for it (so a path absent from both
      sides is never named); an unchanged server file gets exactly one KEEP
      and nothing else; any other server file gets its chunks in order,
      then exactly one COMPLETE. The response is ended only after every
      transfer has sent its COMPLETE. */
  lemma PlanV2PerPath(info: seq<FileRecord>, inv: Inventory, root: Node, p: Path)
    requires PlanV2(info, inv, root).Ended?
    ensures var msgs := PlanV2(info, inv, root).msgs;
            match RecordFor(inv, p)
            case None => Project(msgs, p) == seq(Occurrences(info, p), _ => Delete(p))
            case Some(rec) =>
              if Unchanged(info, rec) then Project(msgs, p) == [Keep(p)]
              else FileAt(root, p).Some? &&
                   Project(msgs, p) == DataMessages(p, FileAt(root, p).value) + [Complete(p)]
  {
    var ds := DeleteMessages(info, inv);
    var ks := KeepMessages(info, inv);
    var ts := TransferMessages(info, inv, root).0;
    ProjectAppend(ds + ks, ts, p);
    ProjectAppend(ds, ks, p);
    ProjectDeletes(info, inv, p);
    ProjectKeeps(info, inv, p);
    ProjectTransfers(info, inv, root, p);
    match RecordFor(inv, p)
    case Some(rec) =>
      var k :| 0 <= k < |inv| && inv[k] == rec;
      assert !Unchanged(info, inv[k]) ==> FileAt(root, inv[k].path).Some?;
    case None =>
  }

  lemma {:induction false} DeletesAreDeletes(info: seq<FileRecord>, inv: seq<FileRecord>)
    ensures forall m :: m in DeleteMessages(info, inv) ==> m.Delete? && m.path in PathsOf(info) && m.path !in PathsOf(inv)
  {
    if |info| > 0 {
      DeletesAreDeletes(info[1..], inv);
    }
  }

  lemma {:induction false} KeepsAreKeeps(info: seq<FileRecord>, inv: seq<FileRecord>)
    ensures forall m :: m in KeepMessages(info, inv) ==> m.Keep?
  {
    if |inv| > 0 {
      KeepsAreKeeps(info, inv[1..]);
    }
  }

  lemma {:induction false} TransfersAreTransfers(info: seq<FileRecord>, inv: seq<FileRecord>, root: Node)
    ensures forall m :: m in TransferMessages(info, inv, root).0 ==> m.Data? || m.Complete?
  {
    if |inv| > 0 {
      TransfersAreTransfers(info, inv[1..], root);
    }
  }

  /** Every DELETE is written before any other message, and every KEEP before
      any data or COMPLETE message; this holds for an abandoned answer too. */
  lemma PlanV2Order(info: seq<FileRecord>, inv: Inventory, root: Node)
    ensures var msgs := PlanV2(info, inv, root).msgs;
            && (forall i, j :: 0 <= i < j < |msgs| && msgs[j].Delete? ==> msgs[i].Delete?)
            && (forall i, j :: 0 <= i < j < |msgs| && msgs[j].Keep? ==> msgs[i].Delete? || msgs[i].Keep?)
  {
    var ds := DeleteMessages(info, inv);
    var ks := KeepMessages(info, inv);
    var ts := TransferMessages(info, inv, root).0;
    DeletesAreDeletes(info, inv);
    KeepsAreKeeps(info, inv);
    TransfersAreTransfers(info, inv, root);
    var msgs := ds + ks + ts;
    assert PlanV2(info, inv, root).msgs == msgs;
    forall i | 0 <= i < |msgs|
      ensures i < |ds| ==> msgs[i].Delete?
      ensures |ds| <= i < |ds| + |ks| ==> msgs[i].Keep?
      ensures |ds| + |ks| <= i ==> msgs[i].Data? || msgs[i].Complete?
    {
      if i < |ds| {
        assert msgs[i] == ds[i];
      } else if i < |ds| + |ks| {
        assert msgs[i] == ks[i - |ds|];
      } else {
        assert msgs[i] == ts[i - |ds| - |ks|];
      }
    }
  }
}

=== FILE: protocol.dfy ===
/** The wire contract of one synchronisation call: the client identifier
    carried in the call metadata, the request's {path, hash} records, the
    two generations of response messages, and how a call ends. */
module Protocol {
  import opened Types
  import opened HashIndexer

  /** A metadata value: text, or binary for keys that carry bytes. */
  datatype MetadataValue = Text(text: string) | Binary(bytes: Bytes)

  /** The server's verdict on the `clientId` metadata entry. `Threw` means the
      handler raised an exception before it could answer. */
  datatype ClientIdCheck = Accepted(name: string) | InvalidArgument | Threw

  /** The check as written: a value that is absent, empty or not text is
      refused, but the log line built before the refusal converts the value
      to a string, and that conversion throws when the value is absent. */
  function CheckClientIdAsWritten(v: Option<MetadataValue>): ClientIdCheck
  {
    match v
    case None => Threw
    case Some(Text(s)) => if s == "" then InvalidArgument else Accepted(s)
    case Some(Binary(_)) => InvalidArgument
  }

  /** The check as intended: every value that is not non-empty text ends the
      call with INVALID_ARGUMENT, and a non-empty text value names the
      client's storage root. */
  function CheckClientId(v: Option<MetadataValue>): (r: ClientIdCheck)
    ensures !r.Threw?
    ensures r.Accepted? <==> v.Some? && v.value.Text? && v.value.text != ""
    ensures r.Accepted? ==> r.name == v.value.text
  {
    match v
    case Some(Text(s)) => if s == "" then InvalidArgument else Accepted(s)
    case _ => InvalidArgument
  }

  /** The call without any `clientId` entry: as written the handler throws
      instead of answering INVALID_ARGUMENT. */
  lemma MissingClientIdThrows()
    ensures CheckClientIdAsWritten(None) == Threw
    ensures CheckClientId(None) == InvalidArgument
  {
  }

  /** The correction changes nothing but the missing-value case. */
  lemma CheckClientIdDiffersOnlyWhenMissing(v: Option<MetadataValue>)
    ensures CheckClientIdAsWritten(v) != CheckClientId(v) <==> v.None?
  {
  }

  /** The response messages of the tagged protocol. */
  datatype Msg = Keep(path: Path) | Delete(path: Path) | Data(path: Path, data: Bytes) | Complete(path: Path)

  /** The response message of the legacy protocol: a path and a chunk; a
      zero-length chunk alone stands for "unchanged". */
  datatype LegacyMsg = LegacyMsg(path: Path, data: Bytes)

  /** How a call ends: refused with INVALID_ARGUMENT before any message, ended
      normally after the listed messages, or abandoned after the listed
      messages because a read failed (the response is then never ended). */
  datatype Reply<M> = Rejected | Ended(msgs: seq<M>) | Aborted(msgs: seq<M>)

  /** The first record for `p` in an ordered list of records. */
  function RecordFor(inv: seq<FileRecord>, p: Path): (r: Option<FileRecord>)
    ensures r.Some? <==> p in PathsOf(inv)
    ensures r.Some? ==> r.value.path == p && r.value in inv
  {
    if |inv| == 0 then None
    else if inv[0].path == p then Some(inv[0])
    else
      var r := RecordFor(inv[1..], p);
      assert PathsOf(inv) == {inv[0].path} + PathsOf(inv[1..]) by {
        assert forall i :: 1 <= i < |inv| ==> inv[i] == inv[1..][i - 1];
      }
      r
  }

  /** The record `RecordFor` finds is the earliest one with its path. */
  lemma {:induction false} RecordForFirst(recs: seq<FileRecord>, p: Path)
    ensures RecordFor(recs, p).Some? ==>
              exists i :: && 0 <= i < |recs| && recs[i] == RecordFor(recs, p).value
                          && forall j :: 0 <= j < i ==> recs[j].path != p
  {
    if |recs| > 0 && recs[0].path != p && RecordFor(recs, p).Some? {
      RecordForFirst(recs[1..], p);
      var k :| && 0 <= k < |recs[1..]| && recs[1..][k] == RecordFor(recs, p).value
               && forall j :: 0 <= j < k ==> recs[1..][j].path != p;
      assert forall j :: 0 <= j < k + 1 ==> recs[j].path != p by {
        assert forall j :: 1 <= j < k + 1 ==> recs[j] == recs[1..][j - 1];
      }
      assert recs[k + 1] == RecordFor(recs, p).value;
    }
  }

  /** The hash the client reported for `p`: that of its first record with
      that path, as `find` returns it. */
  function IncomingHash(info: seq<FileRecord>, p: Path): (r: Option<Digest>)
    ensures r.Some? <==> exists i :: 0 <= i < |info| && info[i].path == p
    ensures r.Some? ==> exists i :: && 0 <= i < |info| && info[i] == FileRecord(p, r.value)
                                   && forall j :: 0 <= j < i ==> info[j].path != p
  {
    RecordForFirst(info, p);
    match RecordFor(info, p)
    case Some(rec) => Some(rec.hash)
    case None => None
  }

  /** The client reported a non-empty hash for the record's path, equal to the
      server's digest: the file is not sent. */
  predicate Unchanged(info: seq<FileRecord>, rec: FileRecord)
  {
    match IncomingHash(info, rec.path)
    case Some(h) => h != "" && h == rec.hash
    case None => false
  }

  /** The server's storage directory of one client. A client without a
      directory gets a root whose every read fails. */
  function StorageRoot(storage: map<string, Node>, name: string): Node
  {
    if name in storage then storage[name] else UnreadableDir
  }

  /** With distinct paths, the first record answers for its own path and
      the rest answer for every other path. */
  lemma RecordForCons(inv: seq<FileRecord>, p: Path)
    requires DistinctPaths(inv) && |inv| > 0
    ensures RecordFor(inv, p) == if inv[0].path == p then Some(inv[0]) else RecordFor(inv[1..], p)
    ensures inv[0].path == p ==> RecordFor(inv[1..], p) == None
  {
  }
}

=== FILE: single_flight.dfy ===
/** How the data handlers for one path create its write stream when they
    interleave. A handler is an asynchronous callback; it can be suspended at
    each of its awaits, and a `schedule` says which handler runs its next
    synchronous segment.

    In the tagged-protocol client the lookup of the path's entry and the
    insertion of a pending stream happen in one synchronous segment, before
    any await, so every handler finds or inserts the same pending stream.
    In the legacy client the handler awaits the creation of the parent
    directory between the lookup and the insertion, so a second handler can
    find nothing and create a second stream on the same file. */
module SingleFlight {
  import opened Types

  /** Write streams are numbered in creation order. */
  type StreamId = nat

  /** Where a handler is suspended. */
  datatype Phase = Start | AwaitingDirectory | AwaitingStream | Finished

  /** The path's registry entry, how many streams were created for it, each
      handler's phase and the stream it holds, and the stream each write
      went through, in write order. */
  datatype World = World(entry: Option<StreamId>, created: nat, phases: seq<Phase>,
                         holds: seq<Option<StreamId>>, writes: seq<StreamId>)

  /** `n` handlers, none started, no stream. */
  function Init(n: nat): (w: World)
    ensures |w.phases| == |w.holds| == n && w.created == 0 && w.writes == []
  {
    World(None, 0, seq(n, _ => Start), seq(n, _ => None), [])
  }

  /** One segment of handler `h` in the tagged-protocol client: the first
      segment looks the path up and, finding nothing, inserts a new pending
      stream at once; the second writes through the stream it holds. */
  function StepV2(w: World, h: nat): World
    requires |w.holds| == |w.phases|
  {
    if h >= |w.phases| then w
    else match w.phases[h]
      case Start =>
        (match w.entry
         case None => World(Some(w.created), w.created + 1, w.phases[h := AwaitingStream],
                            w.holds[h := Some(w.created)], w.writes)
         case Some(s) => w.(phases := w.phases[h := AwaitingStream], holds := w.holds[h := Some(s)]))
      case AwaitingStream =>
        (match w.holds[h]
         case Some(s) => w.(phases := w.phases[h := Finished], writes := w.writes + [s])
         case None => w.(phases := w.phases[h := Finished]))
      case _ => w
  }

  /** One segment of handler `h` in the legacy client: the first segment
      looks the path up and writes at once through the stream it finds, or,
      finding none, starts creating the parent directory; the second creates
      a stream, registers it (replacing any entry) and writes through it. */
  function StepLegacy(w: World, h: nat): World
    requires |w.holds| == |w.phases|
  {
    if h >= |w.phases| then w
    else match w.phases[h]
      case Start =>
        (match w.entry
         case Some(s) => w.(phases := w.phases[h := Finished], holds := w.holds[h := Some(s)], writes := w.writes + [s])
         case None => w.(phases := w.phases[h := AwaitingDirectory]))
      case AwaitingDirectory =>
        World(Some(w.created), w.created + 1, w.phases[h := Finished],
              w.holds[h := Some(w.created)], w.writes + [w.created])
      case _ => w
  }

  function RunV2(w: World, schedule: seq<nat>): (r: World)
    requires |w.holds| == |w.phases|
    ensures |r.holds| == |r.phases| == |w.phases|
    decreases |schedule|
  {
    if |schedule| == 0 then w else RunV2(StepV2(w, schedule[0]), schedule[1..])
  }

  function RunLegacy(w: World, schedule: seq<nat>): (r: World)
    requires |w.holds| == |w.phases|
    ensures |r.holds| == |r.phases| == |w.phases|
    decreases |schedule|
  {
    if |schedule| == 0 then w else RunLegacy(StepLegacy(w, schedule[0]), schedule[1..])
  }

  /** What the tagged-protocol client keeps true: at most one stream, the
      first, is ever created; the entry names it once it exists; every handler
      past its lookup holds it, and every write went through it. */
  predicate SingleStream(w: World)
  {
    && |w.holds| == |w.phases|
    && w.created <= 1
    && (w.entry.Some? <==> w.created == 1)
    && (w.entry.Some? ==> w.entry.value == 0)
    && (forall h :: 0 <= h < |w.phases| && w.phases[h] == AwaitingStream ==> w.holds[h] == Some(0))
    && (forall h :: 0 <= h < |w.holds| && w.holds[h].Some? ==> w.holds[h] == Some(0))
    && (forall i :: 0 <= i < |w.writes| ==> w.writes[i] == 0)
  }

  lemma StepV2Preserves(w: World, h: nat)
    requires SingleStream(w)
    ensures SingleStream(StepV2(w, h))
  {
  }

  /** Whatever the interleaving of the tagged-protocol handlers, at most one
      write stream is created for the path and every chunk is written
      through it. */
  lemma {:induction false} V2SingleStream(w: World, schedule: seq<nat>)
    requires SingleStream(w)
    ensures SingleStream(RunV2(w, schedule))
    decreases |schedule|
  {
    if |schedule| > 0 {
      StepV2Preserves(w, schedule[0]);
      V2SingleStream(StepV2(w, schedule[0]), schedule[1..]);
    }
  }

  lemma V2SingleStreamFromStart(n: nat, schedule: seq<nat>)
    ensures RunV2(Init(n), schedule).created <= 1
    ensures forall i :: 0 <= i < |RunV2(Init(n), schedule).writes| ==> RunV2(Init(n), schedule).writes[i] == 0
  {
    V2SingleStream(Init(n), schedule);
  }

  /** Two legacy handlers for the same path, the second looking the path up
      while the first awaits the directory creation: two streams are created
      on the same file and the two chunks go through different streams. The
      tagged-protocol handlers under the same interleaving share one stream. */
  lemma LegacyRaceCreatesTwoStreams()
    ensures RunLegacy(Init(2), [0, 1, 0, 1]).created == 2
    ensures RunLegacy(Init(2), [0, 1, 0, 1]).writes == [0, 1]
    ensures RunV2(Init(2), [0, 1, 0, 1]).created == 1
    ensures RunV2(Init(2), [0, 1, 0, 1]).writes == [0, 0]
  {
    var w0 := Init(2);
    assert w0.phases == [Start, Start] && w0.holds == [None, None];
    var l1 := StepLegacy(w0, 0);
    var l2 := StepLegacy(l1, 1);
    var l3 := StepLegacy(l2, 0);
    var l4 := StepLegacy(l3, 1);
    assert l2.phases == [AwaitingDirectory, AwaitingDirectory];
    assert l4.writes == [0, 1];
    assert RunLegacy(w0, [0, 1, 0, 1]) == l4 by {
      assert [0, 1, 0, 1][1..] == [1, 0, 1];
      assert [1, 0, 1][1..] == [0, 1];
      assert [0, 1][1..] == [1];
      assert [1][1..] == [];
    }
    var v1 := StepV2(w0, 0);
    var v2 := StepV2(v1, 1);
    var v3 := StepV2(v2, 0);
    var v4 := StepV2(v3, 1);
    assert v2.phases == [AwaitingStream, AwaitingStream] && v2.holds == [Some(0), Some(0)];
    assert v4.writes == [0, 0];
    assert RunV2(w0, [0, 1, 0, 1]) == v4 by {
      assert [0, 1, 0, 1][1..] == [1, 0, 1];
      assert [1, 0, 1][1..] == [0, 1];
      assert [0, 1][1..] == [1];
      assert [1][1..] == [];
    }
  }
}

=== FILE: sink_legacy.dfy ===
/** The client side of the legacy protocol. Each chunk is written through
    the path's write stream, which is created (truncating the file) the first
    time the path is named in the session. When the response ends, every
    file the client listed in its request that got no stream is removed,
    every stream is closed and the registry is cleared.

    Two versions of the chunk handler are modelled: the one as written,
    under which the zero-length "unchanged" chunk also creates a stream and
    so empties the file, and a corrected one under which a zero-length chunk
    on a path without a stream only marks the path as kept. */
module SinkLegacy {
  import opened Types
  import opened Protocol
  import opened PlannerLegacy

  /** One session's client state: file contents by path, and the paths a
      write stream was registered for during the session. */
  datatype LegacyClient = LegacyClient(store: map<Path, Bytes>, registry: set<Path>)

  /** A session starts with the client's files and no stream. */
  function Session(store: map<Path, Bytes>): LegacyClient
  {
    LegacyClient(store, {})
  }

  /** One chunk as the handler is written: a path without a stream gets a new
      one, which truncates or creates the file before the chunk is written;
      otherwise the chunk is appended through the existing stream. */
  function StepAsWritten(c: LegacyClient, m: LegacyMsg): (r: LegacyClient)
    ensures forall q :: q != m.path ==> Lookup(r.store, q) == Lookup(c.store, q)
    ensures r.registry == c.registry + {m.path}
    ensures m.path !in c.registry ==> Lookup(r.store, m.path) == Some(m.data)
    ensures m.path in c.registry && m.path in c.store ==> Lookup(r.store, m.path) == Some(c.store[m.path] + m.data)
  {
    var p := m.path;
    if p !in c.registry then LegacyClient(c.store[p := m.data], c.registry + {p})
    else if p in c.store then c.(store := c.store[p := c.store[p] + m.data])
    else c
  }

  /** One chunk as intended: the zero-length chunk that stands for
      "unchanged" marks its path as kept without opening a stream, so no
      zero-length chunk changes any content; a non-empty chunk is handled as
      before. */
  function StepCorrected(c: LegacyClient, m: LegacyMsg): (r: LegacyClient)
    ensures r.registry == c.registry + {m.path}
    ensures |m.data| == 0 ==> r.store == c.store
    ensures |m.data| > 0 ==> r == StepAsWritten(c, m)
  {
    if |m.data| == 0 && m.path !in c.registry then c.(registry := c.registry + {m.path})
    else
      assert |m.data| == 0 && m.path in c.store ==> c.store[m.path] + m.data == c.store[m.path];
      StepAsWritten(c, m)
  }

  function Step(c: LegacyClient, m: LegacyMsg, corrected: bool): LegacyClient
  {
    if corrected then StepCorrected(c, m) else StepAsWritten(c, m)
  }

  function Run(c: LegacyClient, msgs: seq<LegacyMsg>, corrected: bool): LegacyClient
    decreases |msgs|
  {
    if |msgs| == 0 then c else Run(Step(c, msgs[0], corrected), msgs[1..], corrected)
  }

  /** The end of the response: a file the client listed in its request is
      removed unless a stream was registered for it; other files stay as they
      are, and the registry is cleared. */
  function End(c: LegacyClient, preSync: seq<FileRecord>): (r: LegacyClient)
    ensures r.registry == {}
    ensures forall p :: p in PathsOf(preSync) && p !in c.registry ==> p !in r.store
    ensures forall p :: p in c.registry || p !in PathsOf(preSync) ==> Lookup(r.store, p) == Lookup(c.store, p)
  {
    LegacyClient(c.store - (PathsOf(preSync) - c.registry), {})
  }

  // ---------------------------------------------------------------------
  // The effect of a session on one path

  /** What the client holds for one path. */
  datatype LegacyView = LegacyView(content: Option<Bytes>, registered: bool)

  function ViewAt(c: LegacyClient, p: Path): LegacyView
  {
    LegacyView(Lookup(c.store, p), p in c.registry)
  }

  /** Reference semantics of one chunk on the state of its own path. */
  function StepView(v: LegacyView, m: LegacyMsg, corrected: bool): LegacyView
  {
    if !v.registered then
      (if corrected && |m.data| == 0 then v.(registered := true) else LegacyView(Some(m.data), true))
    else
      match v.content
      case Some(d) => LegacyView(Some(d + m.data), true)
      case None => v
  }

  function RunView(v: LegacyView, msgs: seq<LegacyMsg>, corrected: bool): LegacyView
    decreases |msgs|
  {
    if |msgs| == 0 then v else RunView(StepView(v, msgs[0], corrected), msgs[1..], corrected)
  }

  /** Reference semantics of the end of the response on one path, given
      whether the client listed it in its request. */
  function EndView(v: LegacyView, listed: bool): LegacyView
  {
    LegacyView(if listed && !v.registered then None else v.content, false)
  }

  /** A session's effect on a path depends only on the chunks that name that
      path, in their order. */
  lemma {:induction false} RunIsLocal(c: LegacyClient, msgs: seq<LegacyMsg>, p: Path, corrected: bool)
    ensures ViewAt(Run(c, msgs, corrected), p) == RunView(ViewAt(c, p), ProjectLegacy(msgs, p), corrected)
    decreases |msgs|
  {
    if |msgs| > 0 {
      var m := msgs[0];
      var rest := ProjectLegacy(msgs[1..], p);
      RunIsLocal(Step(c, m, corrected), msgs[1..], p, corrected);
      if m.path == p {
        assert ProjectLegacy(msgs, p) == [m] + rest;
        assert ([m] + rest)[0] == m && ([m] + rest)[1..] == rest;
        assert ViewAt(Step(c, m, corrected), p) == StepView(ViewAt(c, p), m, corrected);
      } else {
        assert ProjectLegacy(msgs, p) == rest;
        assert ViewAt(Step(c, m, corrected), p) == ViewAt(c, p);
      }
    }
  }

  /** The end of the response acts on each path on its own. */
  lemma EndIsLocal(c: LegacyClient, preSync: seq<FileRecord>, p: Path)
    ensures ViewAt(End(c, preSync), p) == EndView(ViewAt(c, p), p in PathsOf(preSync))
  {
  }

  /** As written, the "unchanged" answer replaces the file's content with
      nothing. */
  lemma UnchangedEmptiesFile(v: LegacyView, p: Path)
    requires !v.registered
    ensures RunView(v, [LegacyMsg(p, [])], false) == LegacyView(Some([]), true)
  {
  }

  /** Corrected, the "unchanged" answer keeps the content and protects the
      file from removal at the end of the response. */
  lemma UnchangedKeepsFile(v: LegacyView, p: Path, listed: bool)
    requires !v.registered
    ensures EndView(RunView(v, [LegacyMsg(p, [])], true), listed).content == v.content
  {
  }

  /** Non-empty chunks written through a registered path are appended in
      arrival order, under either handler. */
  lemma {:induction false} LegacyAppendsInOrder(acc: Bytes, p: Path, chunks: seq<Bytes>, corrected: bool)
    ensures RunView(LegacyView(Some(acc), true), ChunkMessages(p, chunks), corrected) ==
              LegacyView(Some(acc + Concat(chunks)), true)
    decreases |chunks|
  {
    if |chunks| > 0 {
      var ms := ChunkMessages(p, chunks);
      assert ms[0] == LegacyMsg(p, chunks[0]);
      assert ms[1..] == ChunkMessages(p, chunks[1..]);
      LegacyAppendsInOrder(acc + chunks[0], p, chunks[1..], corrected);
      assert acc + chunks[0] + Concat(chunks[1..]) == acc + Concat(chunks);
    } else {
      assert ChunkMessages(p, chunks) == [];
      assert acc + Concat(chunks) == acc;
    }
  }

  /** A transfer of non-empty chunks into a path without a stream leaves
      exactly the transferred bytes, under either handler; a transfer of no
      chunk leaves the path as it was. */
  lemma LegacyTransfer(content: Option<Bytes>, p: Path, chunks: seq<Bytes>, corrected: bool)
    requires forall i :: 0 <= i < |chunks| ==> |chunks[i]| > 0
    ensures RunView(LegacyView(content, false), ChunkMessages(p, chunks), corrected) ==
              if |chunks| == 0 then LegacyView(content, false) else LegacyView(Some(Concat(chunks)), true)
  {
    var ms := ChunkMessages(p, chunks);
    if |chunks| > 0 {
      assert ms[0] == LegacyMsg(p, chunks[0]);
      assert ms[1..] == ChunkMessages(p, chunks[1..]);
      assert StepView(LegacyView(content, false), ms[0], corrected) == LegacyView(Some(chunks[0]), true);
      LegacyAppendsInOrder(chunks[0], p, chunks[1..], corrected);
    } else {
      assert ms == [];
    }
  }
}

=== FILE: sink_v2.dfy ===
/** The client side of the tagged protocol: each response message is handled
    against the client's file store and its registry of write handles. KEEP
    does nothing; DELETE removes the file; COMPLETE closes the path's handle
    if it has one, leaving the registry entry in place; a data message opens
    (and registers) a handle on first use, truncating the file, and appends
    its chunk through that handle. There is no end-of-stream cleanup.

    Handlers run one after another in arrival order; the handle registry
    entry is inserted in the same step as its lookup (see module
    SingleFlight for what that buys under interleaving). */
module SinkV2 {
  import opened Types
  import opened Protocol
  import opened PlannerV2

  datatype Handle = Open | Closed

  /** One session's client state: file contents by path, and the handles
      created during the session by path. */
  datatype Client = Client(store: map<Path, Bytes>, handles: map<Path, Handle>)

  /** A session starts with the client's files and no handle. */
  function Session(store: map<Path, Bytes>): Client
  {
    Client(store, map[])
  }

  /** Handles one message. */
  function Step(c: Client, m: Msg): (r: Client)
    ensures forall q :: q != m.path ==> Lookup(r.store, q) == Lookup(c.store, q) && Lookup(r.handles, q) == Lookup(c.handles, q)
    ensures m.Keep? ==> r == c
    ensures m.Delete? ==> r.store.Keys == c.store.Keys - {m.path} && r.handles == c.handles
    ensures m.Complete? ==> r.store == c.store && r.handles.Keys == c.handles.Keys
    ensures m.Complete? && m.path in c.handles ==> r.handles[m.path] == Closed
    ensures m.Data? ==> m.path in r.handles
  {
    match m
    case Keep(_) => c
    case Delete(p) => c.(store := c.store - {p})
    case Complete(p) => if p in c.handles then c.(handles := c.handles[p := Closed]) else c
    case Data(p, d) =>
      if p !in c.handles then Client(c.store[p := d], c.handles[p := Open])
      else if c.handles[p] == Open && p in c.store then c.(store := c.store[p := c.store[p] + d])
      else c
  }

  function Run(c: Client, msgs: seq<Msg>): Client
    decreases |msgs|
  {
    if |msgs| == 0 then c else Run(Step(c, msgs[0]), msgs[1..])
  }

  // ---------------------------------------------------------------------
  // The effect of a session on one path

  /** What the client holds for one path. */
  datatype View = View(content: Option<Bytes>, handle: Option<Handle>)

  function ViewAt(c: Client, p: Path): View
  {
    View(Lookup(c.store, p), Lookup(c.handles, p))
  }

  /** Reference semantics of one message on the state of its own path. */
  function StepView(v: View, m: Msg): View
  {
    match m
    case Keep(_) => v
    case Delete(_) => v.(content := None)
    case Complete(_) => if v.handle.Some? then v.(handle := Some(Closed)) else v
    case Data(_, d) =>
      match v.handle
      case None => View(Some(d), Some(Open))
      case Some(Open) => if v.content.Some? then v.(content := Some(v.content.value + d)) else v
      case Some(Closed) => v
  }

  function RunView(v: View, msgs: seq<Msg>): View
    decreases |msgs|
  {
    if |msgs| == 0 then v else RunView(StepView(v, msgs[0]), msgs[1..])
  }

  lemma StepMatchesView(c: Client, m: Msg)
    ensures ViewAt(Step(c, m), m.path) == StepView(ViewAt(c, m.path), m)
  {
  }

  /** A session's effect on a path depends only on the messages that name
      that path, in their order: a message affects only its own path. */
  lemma {:induction false} RunIsLocal(c: Client, msgs: seq<Msg>, p: Path)
    ensures ViewAt(Run(c, msgs), p) == RunView(ViewAt(c, p), Project(msgs, p))
    decreases |msgs|
  {
    if |msgs| > 0 {
      var m := msgs[0];
      var rest := Project(msgs[1..], p);
      RunIsLocal(Step(c, m), msgs[1..], p);
      if m.path == p {
        StepMatchesView(c, m);
        assert Project(msgs, p) == [m] + rest;
        assert ([m] + rest)[0] == m && ([m] + rest)[1..] == rest;
      } else {
        assert Project(msgs, p) == rest;
        assert ViewAt(Step(c, m), p) == ViewAt(c, p);
      }
    }
  }

  /** Hence how the transfers of different paths interleave does not matter:
      two orders of the same messages that keep each path's own order leave
      the client in the same state. */
  lemma InterleavingIrrelevant(c: Client, a: seq<Msg>, b: seq<Msg>)
    requires forall p :: Project(a, p) == Project(b, p)
    ensures Run(c, a) == Run(c, b)
  {
    var x, y := Run(c, a), Run(c, b);
    forall p
      ensures ViewAt(x, p) == ViewAt(y, p)
    {
      RunIsLocal(c, a, p);
      RunIsLocal(c, b, p);
    }
    SameViewsSameClient(x, y);
  }

  lemma SameViewsSameClient(x: Client, y: Client)
    requires forall p :: ViewAt(x, p) == ViewAt(y, p)
    ensures x == y
  {
    forall p
      ensures (p in x.store <==> p in y.store) && (p in x.store ==> x.store[p] == y.store[p])
      ensures (p in x.handles <==> p in y.handles) && (p in x.handles ==> x.handles[p] == y.handles[p])
    {
      assert ViewAt(x, p) == ViewAt(y, p);
    }
  }

  lemma RunViewAppend(v: View, a: seq<Msg>, b: seq<Msg>)
    ensures RunView(v, a + b) == RunView(RunView(v, a), b)
    decreases |a|
  {
    if |a| == 0 {
      assert a + b == b;
    } else {
      assert (a + b)[1..] == a[1..] + b;
      RunViewAppend(StepView(v, a[0]), a[1..], b);
    }
  }

  /** Chunks written through an open handle are appended in arrival order. */
  lemma {:induction false} AppendsInOrder(acc: Bytes, p: Path, chunks: seq<Bytes>)
    ensures RunView(View(Some(acc), Some(Open)), DataMessages(p, chunks)) == View(Some(acc + Concat(chunks)), Some(Open))
    decreases |chunks|
  {
    if |chunks| > 0 {
      var ds := DataMessages(p, chunks);
      assert ds[0] == Data(p, chunks[0]);
      assert ds[1..] == DataMessages(p, chunks[1..]);
      assert StepView(View(Some(acc), Some(Open)), ds[0]) == View(Some(acc + chunks[0]), Some(Open));
      AppendsInOrder(acc + chunks[0], p, chunks[1..]);
      assert acc + chunks[0] + Concat(chunks[1..]) == acc + Concat(chunks);
    } else {
      assert DataMessages(p, chunks) == [];
      assert acc + Concat(chunks) == acc;
    }
  }

  /** A transfer into a path without a handle: the first chunk opens one
      handle (truncating the file), every chunk is appended, and COMPLETE
      closes it, so the file ends up holding exactly the transferred bytes.
      A transfer without chunks only carries COMPLETE, which finds no handle
      and leaves the path as it was. */
  lemma Transfer(content: Option<Bytes>, p: Path, chunks: seq<Bytes>)
    ensures RunView(View(content, None), DataMessages(p, chunks) + [Complete(p)]) ==
              if |chunks| == 0 then View(content, None) else View(Some(Concat(chunks)), Some(Closed))
  {
    var v := View(content, None);
    RunViewAppend(v, DataMessages(p, chunks), [Complete(p)]);
    if |chunks| > 0 {
      assert DataMessages(p, chunks)[1..] == DataMessages(p, chunks[1..]);
      AppendsInOrder(chunks[0], p, chunks[1..]);
    } else {
      assert DataMessages(p, chunks) == [];
    }
  }

  /** Any positive number of DELETEs removes the file and leaves its handle
      alone; none leaves the path as it was. */
  lemma {:induction false} Deletes(v: View, p: Path, n: nat)
    ensures RunView(v, seq(n, _ => Delete(p))) == if n == 0 then v else v.(content := None)
    decreases n
  {
    if n > 0 {
      var ds := seq(n, _ => Delete(p));
      assert ds[1..] == seq(n - 1, _ => Delete(p));
      Deletes(v.(content := None), p, n - 1);
    }
  }
}

=== FILE: sync.dfy ===
/** One synchronisation session end to end: the server's answer replayed on
    the client's file store. The theorems take the client's request to report its
    files truthfully, the server's inventory to describe its storage, and a
    matching digest to mean matching content. */
module Sync {
  import opened Types
  import opened HashIndexer
  import opened Protocol
  import opened PlannerV2
  import opened SinkV2
  import PlannerLegacy
  import SinkLegacy
  import AdmissionGate

  /** `p` names a readable regular file of the server's storage. */
  predicate ServerFile(root: Node, p: Path)
  {
    |p| > 0 && FileAt(root, p).Some?
  }

  /** The request lists every client file once or more, each with the digest
      of its content. */
  ghost predicate Reports(info: seq<FileRecord>, store: map<Path, Bytes>, H: Bytes -> Digest)
  {
    && PathsOf(info) == store.Keys
    && forall i :: 0 <= i < |info| ==> info[i].path in store && info[i].hash == H(store[info[i].path])
  }

  /** `a` names a directory on the way to `b`. */
  predicate ProperPrefix(a: Path, b: Path)
  {
    |a| < |b| && b[..|a|] == a
  }

  /** No client file lies where the server has a directory on the way to one
      of its files, and no server file lies where the client has such a
      directory. A flat file store cannot show such a clash, but on a real
      disk it makes the client's stream creation or `mkdir` fail. */
  ghost predicate NoPathConflicts(store: map<Path, Bytes>, root: Node)
  {
    forall p, q :: p in store && ServerFile(root, q) ==> !ProperPrefix(p, q) && !ProperPrefix(q, p)
  }

  /** A client file `a/b.txt` against a server file `a` is such a clash. */
  lemma DirectoryAtServerFileConflicts(content: Bytes, chunks: seq<Bytes>)
    ensures !NoPathConflicts(map[["a", "b.txt"] := content], Dir([Entry("a", File(chunks))]))
  {
    var root := Dir([Entry("a", File(chunks))]);
    assert FileAt(root, ["a"]).Some? by {
      assert ["a"][1..] == [];
    }
    assert ProperPrefix(["a"], ["a", "b.txt"]);
  }

  /** The inventory lists exactly the server's files, each with the digest of
      its content. */
  ghost predicate Indexes(inv: seq<FileRecord>, root: Node, H: Bytes -> Digest)
  {
    && (forall p :: p in PathsOf(inv) <==> ServerFile(root, p))
    && forall i :: 0 <= i < |inv| ==>
         FileAt(root, inv[i].path).Some? && inv[i].hash == DigestOf(FileAt(root, inv[i].path).value, H)
  }

  /** A client file whose digest matches that of the server's file at the
      same path has the same content. */
  ghost predicate DigestsDistinguish(store: map<Path, Bytes>, root: Node, H: Bytes -> Digest)
  {
    forall p :: p in store && FileAt(root, p).Some? && H(store[p]) == DigestOf(FileAt(root, p).value, H) ==>
      store[p] == Concat(FileAt(root, p).value)
  }

  /** A digest is never the empty string. */
  ghost predicate DigestsNonEmpty(H: Bytes -> Digest)
  {
    forall b :: H(b) != ""
  }

  /** The inventory a successful walk builds describes the walked tree. */
  lemma WalkIndexes(root: Node, H: Bytes -> Digest)
    requires WellFormed(root) && Walk(root, [], H).Success?
    ensures DistinctPaths(Walk(root, [], H).value)
    ensures Indexes(Walk(root, [], H).value, root, H)
  {
    var recs := Walk(root, [], H).value;
    InventoryMapOfTree(root, H);
    ToMapLosesNothing(recs);
    forall i | 0 <= i < |recs|
      ensures FileAt(root, recs[i].path).Some? && recs[i].hash == DigestOf(FileAt(root, recs[i].path).value, H)
    {
      assert recs[i].path in ToMap(recs);
    }
  }

  /** The request a client builds by walking its own tree reports that tree's
      files truthfully: `store` is the client's tree seen as a file store, one
      entry per readable regular file, holding that file's content. */
  lemma ClientRequestReports(t: Node, store: map<Path, Bytes>, H: Bytes -> Digest)
    requires WellFormed(t) && Walk(t, [], H).Success?
    requires forall p :: p in store <==> ServerFile(t, p)
    requires forall p :: p in store ==> FileAt(t, p).Some? && store[p] == Concat(FileAt(t, p).value)
    ensures Reports(Walk(t, [], H).value, store, H)
  {
    var info := Walk(t, [], H).value;
    WalkIndexes(t, H);
    forall i | 0 <= i < |info|
      ensures info[i].path in store && info[i].hash == H(store[info[i].path])
    {
      assert info[i].path in PathsOf(info);
    }
  }

  lemma {:induction false} OccursIffListed(info: seq<FileRecord>, p: Path)
    ensures Occurrences(info, p) > 0 <==> p in PathsOf(info)
  {
    if |info| > 0 {
      OccursIffListed(info[1..], p);
      assert PathsOf(info) == {info[0].path} + PathsOf(info[1..]) by {
        assert forall i :: 1 <= i < |info| ==> info[i] == info[1..][i - 1];
      }
    }
  }

  /** A file the planner finds unchanged is up to date on the client. */
  lemma UnchangedMeansUpToDate(info: seq<FileRecord>, store: map<Path, Bytes>, root: Node, H: Bytes -> Digest, rec: FileRecord)
    requires Reports(info, store, H) && DigestsDistinguish(store, root, H)
    requires FileAt(root, rec.path).Some? && rec.hash == DigestOf(FileAt(root, rec.path).value, H)
    requires Unchanged(info, rec)
    ensures Lookup(store, rec.path) == Some(Concat(FileAt(root, rec.path).value))
  {
    var i :| 0 <= i < |info| && info[i] == FileRecord(rec.path, IncomingHash(info, rec.path).value);
  }

  /** With digests that are never empty, a file up to date on the client is
      found unchanged. */
  lemma UpToDateMeansUnchanged(info: seq<FileRecord>, store: map<Path, Bytes>, root: Node, H: Bytes -> Digest, rec: FileRecord)
    requires Reports(info, store, H) && DigestsNonEmpty(H)
    requires FileAt(root, rec.path).Some? && rec.hash == DigestOf(FileAt(root, rec.path).value, H)
    requires Lookup(store, rec.path) == Some(Concat(FileAt(root, rec.path).value))
    ensures Unchanged(info, rec)
  {
    assert rec.path in PathsOf(info);
    var j :| 0 <= j < |info| && info[j].path == rec.path;
    var i :| 0 <= i < |info| && info[i] == FileRecord(rec.path, IncomingHash(info, rec.path).value);
  }

  // ---------------------------------------------------------------------
  // Tagged protocol

  /** What the client should hold at `p` after a tagged-protocol session: the
      server's content for a non-empty server file; for an empty server file,
      what it held before (an empty file is answered with COMPLETE alone,
      which finds no stream to close); nothing for any other path. */
  function ExpectedV2(store: map<Path, Bytes>, root: Node, p: Path): Option<Bytes>
  {
    if ServerFile(root, p) then
      (if |FileAt(root, p).value| == 0 then Lookup(store, p) else Some(Concat(FileAt(root, p).value)))
    else None
  }

  /** The paths the client opens a write stream for in a tagged-protocol
      session: the server files not found unchanged that have at least one
      chunk, since only a data message opens a stream. */
  ghost function StreamedPaths(info: seq<FileRecord>, inv: seq<FileRecord>, root: Node): set<Path>
  {
    set i | 0 <= i < |inv| && !Unchanged(info, inv[i]) && FileAt(root, inv[i].path).Some?
                           && |FileAt(root, inv[i].path).value| > 0 :: inv[i].path
  }

  /** On a well-formed storage, whose reads never yield an empty chunk, a
      server file has content exactly when it has a chunk, so "non-empty"
      below means the same measured in chunks or in bytes. */
  lemma NonEmptyMeansChunks(root: Node, p: Path)
    requires WellFormed(root) && ServerFile(root, p)
    ensures |Concat(FileAt(root, p).value)| > 0 <==> |FileAt(root, p).value| > 0
  {
    WellFormedFileChunks(root, p);
    ConcatEmptyIff(FileAt(root, p).value);
  }

  /** Convergence of the tagged protocol: the answer ends normally, and
      replaying it leaves every non-empty server file on the client with the
      server's content, removes every client file the server lacks, leaves an
      empty server file as the client had it, and creates nothing else.
      Every non-empty file the client lacked or held with other content
      ends with its stream closed. Each stream holds
      a slot of the client's file service for good, so the session is only
      covered when it opens no more streams than the service admits
      (`AdmissionGate.WriteLeasesSuffice`). */
  lemma V2Converges(store: map<Path, Bytes>, info: seq<FileRecord>, inv: Inventory, root: Node, H: Bytes -> Digest)
    requires WellFormed(root)
    requires |StreamedPaths(info, inv, root)| <= AdmissionGate.DefaultLimit
    requires NoPathConflicts(store, root)
    requires Reports(info, store, H)
    requires Indexes(inv, root, H)
    requires DigestsDistinguish(store, root, H)
    ensures PlanV2(info, inv, root).Ended?
    ensures var final := Run(Session(store), PlanV2(info, inv, root).msgs);
            forall p :: Lookup(final.store, p) == ExpectedV2(store, root, p)
    ensures var final := Run(Session(store), PlanV2(info, inv, root).msgs);
            forall p :: ServerFile(root, p) && |FileAt(root, p).value| > 0 && Lookup(store, p) != Some(Concat(FileAt(root, p).value)) ==>
              Lookup(final.handles, p) == Some(Closed)
  {
    var msgs := PlanV2(info, inv, root).msgs;
    var final := Run(Session(store), msgs);
    forall p
      ensures Lookup(final.store, p) == ExpectedV2(store, root, p)
      ensures ServerFile(root, p) && |FileAt(root, p).value| > 0 && Lookup(store, p) != Some(Concat(FileAt(root, p).value)) ==>
                Lookup(final.handles, p) == Some(Closed)
    {
      var v := View(Lookup(store, p), None);
      RunIsLocal(Session(store), msgs, p);
      PlanV2PerPath(info, inv, root, p);
      match RecordFor(inv, p)
      case None =>
        Deletes(v, p, Occurrences(info, p));
        OccursIffListed(info, p);
      case Some(rec) =>
        var k :| 0 <= k < |inv| && inv[k] == rec;
        if Unchanged(info, rec) {
          UnchangedMeansUpToDate(info, store, root, H, rec);
        } else {
          Transfer(Lookup(store, p), p, FileAt(root, p).value);
        }
    }
  }

  // ---------------------------------------------------------------------
  // Legacy protocol

  /** What the client should hold at `p` after a legacy session: the
      server's content for a non-empty server file; for an empty server file,
      an empty file if the client already held one, nothing otherwise (it
      gets no chunk, so the end of the response removes the client's copy);
      nothing for any other path. */
  function ExpectedLegacy(store: map<Path, Bytes>, root: Node, p: Path): Option<Bytes>
  {
    if ServerFile(root, p) then
      (if |FileAt(root, p).value| > 0 then Some(Concat(FileAt(root, p).value))
       else if Lookup(store, p) == Some([]) then Some([])
       else None)
    else None
  }

  /** The legacy session, as written or corrected, on one path. */
  lemma LegacyAtPath(store: map<Path, Bytes>, info: seq<FileRecord>, root: Node, H: Bytes -> Digest, corrected: bool, p: Path)
    requires WellFormed(root) && Walk(root, [], H).Success?
    requires Reports(info, store, H) && DigestsDistinguish(store, root, H) && DigestsNonEmpty(H)
    requires NoPathConflicts(store, root)
    ensures PlannerLegacy.PlanLegacy(info, root, H).Ended?
    ensures var msgs := PlannerLegacy.PlanLegacy(info, root, H).msgs;
            var final := SinkLegacy.End(SinkLegacy.Run(SinkLegacy.Session(store), msgs, corrected), info);
            Lookup(final.store, p) ==
              if !corrected && ServerFile(root, p) && Lookup(store, p) == Some(Concat(FileAt(root, p).value)) then Some([])
              else ExpectedLegacy(store, root, p)
  {
    var recs := Walk(root, [], H).value;
    HashIndexer.WalkSucceedsIffHealthy(root, [], H);
    PlannerLegacy.PlanLegacyEndsIffHealthy(info, root, H);
    var msgs := PlannerLegacy.PlanLegacy(info, root, H).msgs;
    var start := SinkLegacy.Session(store);
    var ran := SinkLegacy.Run(start, msgs, corrected);
    WalkIndexes(root, H);
    PlannerLegacy.PlanLegacyPerPath(info, root, H, p);
    SinkLegacy.RunIsLocal(start, msgs, p, corrected);
    SinkLegacy.EndIsLocal(ran, info, p);
    match RecordFor(recs, p)
    case None =>
      assert PlannerLegacy.ProjectLegacy(msgs, p) == [];
    case Some(rec) =>
      var k :| 0 <= k < |recs| && recs[k] == rec;
      var chunks := FileAt(root, p).value;
      if Unchanged(info, rec) {
        UnchangedMeansUpToDate(info, store, root, H, rec);
      } else {
        if Lookup(store, p) == Some(Concat(chunks)) {
          UpToDateMeansUnchanged(info, store, root, H, rec);
        }
        WellFormedFileChunks(root, p);
        SinkLegacy.LegacyTransfer(Lookup(store, p), p, chunks, corrected);
        if |chunks| == 0 && Lookup(store, p) == Some([]) {
          UpToDateMeansUnchanged(info, store, root, H, rec);
        }
      }
  }

  /** The legacy session as written: every file the client already had up to
      date ends up empty, because the zero-length "unchanged" chunk opens a
      truncating stream; every other path ends as intended. */
  lemma LegacyAsWrittenEmptiesUpToDateFiles(store: map<Path, Bytes>, info: seq<FileRecord>, root: Node, H: Bytes -> Digest)
    requires WellFormed(root) && Walk(root, [], H).Success?
    requires Reports(info, store, H) && DigestsDistinguish(store, root, H) && DigestsNonEmpty(H)
    requires NoPathConflicts(store, root)
    ensures PlannerLegacy.PlanLegacy(info, root, H).Ended?
    ensures var msgs := PlannerLegacy.PlanLegacy(info, root, H).msgs;
            var final := SinkLegacy.End(SinkLegacy.Run(SinkLegacy.Session(store), msgs, false), info);
            && (forall p :: ServerFile(root, p) && Lookup(store, p) == Some(Concat(FileAt(root, p).value)) ==>
                  Lookup(final.store, p) == Some([]))
            && (forall p :: !(ServerFile(root, p) && Lookup(store, p) == Some(Concat(FileAt(root, p).value))) ==>
                  Lookup(final.store, p) == ExpectedLegacy(store, root, p))
  {
    forall p
      ensures var msgs := PlannerLegacy.PlanLegacy(info, root, H).msgs;
              var final := SinkLegacy.End(SinkLegacy.Run(SinkLegacy.Session(store), msgs, false), info);
              Lookup(final.store, p) ==
                if ServerFile(root, p) && Lookup(store, p) == Some(Concat(FileAt(root, p).value)) then Some([])
                else ExpectedLegacy(store, root, p)
    {
      LegacyAtPath(store, info, root, H, false, p);
    }
    PlannerLegacy.PlanLegacyEndsIffHealthy(info, root, H);
    HashIndexer.WalkSucceedsIffHealthy(root, [], H);
  }

  /** The legacy session with the corrected chunk handler converges: every
      non-empty server file ends with the server's content, including those
      the client already had, and every client file the server lacks is
      removed. */
  lemma LegacyCorrectedConverges(store: map<Path, Bytes>, info: seq<FileRecord>, root: Node, H: Bytes -> Digest)
    requires WellFormed(root) && Walk(root, [], H).Success?
    requires Reports(info, store, H) && DigestsDistinguish(store, root, H) && DigestsNonEmpty(H)
    requires NoPathConflicts(store, root)
    ensures PlannerLegacy.PlanLegacy(info, root, H).Ended?
    ensures var msgs := PlannerLegacy.PlanLegacy(info, root, H).msgs;
            var final := SinkLegacy.End(SinkLegacy.Run(SinkLegacy.Session(store), msgs, true), info);
            forall p :: Lookup(final.store, p) == ExpectedLegacy(store, root, p)
  {
    forall p
      ensures var msgs := PlannerLegacy.PlanLegacy(info, root, H).msgs;
              var final := SinkLegacy.End(SinkLegacy.Run(SinkLegacy.Session(store), msgs, true), info);
              Lookup(final.store, p) == ExpectedLegacy(store, root, p)
    {
      LegacyAtPath(store, info, root, H, true, p);
    }
    PlannerLegacy.PlanLegacyEndsIffHealthy(info, root, H);
    HashIndexer.WalkSucceedsIffHealthy(root, [], H);
  }

  // ---------------------------------------------------------------------
  // A worked session: the client holds a.txt = "X" and b.txt = "old", the
  // server holds a.txt = "X" and c.txt = "new".

  const FileA: Path := ["a.txt"]
  const FileB: Path := ["b.txt"]
  const FileC: Path := ["c.txt"]
  const BytesX: Bytes := [88]
  const BytesOld: Bytes := [111, 108, 100]
  const BytesNew: Bytes := [110, 101, 119]
  const ClientName: string := "client-12345"

  function ScenarioServer(): Node
  {
    Dir([Entry("a.txt", File([BytesX])), Entry("c.txt", File([BytesNew]))])
  }

  function ScenarioClient(): map<Path, Bytes>
  {
    map[FileA := BytesX, FileB := BytesOld]
  }

  function ScenarioRequest(H: Bytes -> Digest): seq<FileRecord>
  {
    [FileRecord(FileA, H(BytesX)), FileRecord(FileB, H(BytesOld))]
  }

  /** The server's inventory of the scenario's storage: a.txt, then c.txt. */
  lemma ScenarioInventory(H: Bytes -> Digest)
    ensures Walk(ScenarioServer(), [], H) == Success([FileRecord(FileA, H(BytesX)), FileRecord(FileC, H(BytesNew))])
  {
    SingleChunk(BytesX);
    SingleChunk(BytesNew);
    var es := ScenarioServer().entries;
    var last := es[1..];
    assert last[1..] == [];
    assert WalkEntries(last[1..], [], H) == Success([]);
    assert [] + ["c.txt"] == FileC && [] + ["a.txt"] == FileA;
    assert DigestOf([BytesX], H) == H(BytesX) && DigestOf([BytesNew], H) == H(BytesNew);
    assert es[0] == Entry("a.txt", File([BytesX])) && last[0] == Entry("c.txt", File([BytesNew]));
    assert WalkEntries(last, [], H) == Success([FileRecord(FileC, H(BytesNew))] + []);
    var rest := WalkEntries(last, [], H).value;
    assert rest == [FileRecord(FileC, H(BytesNew))];
    assert WalkEntries(es, [], H) == Success([FileRecord(FileA, H(BytesX))] + rest);
    assert [FileRecord(FileA, H(BytesX))] + rest == [FileRecord(FileA, H(BytesX)), FileRecord(FileC, H(BytesNew))];
    assert Walk(ScenarioServer(), [], H) == WalkEntries(es, [], H);
  }

  lemma SingleChunk(b: Bytes)
    ensures Concat([b]) == b
  {
    assert [b][1..] == [];
  }

  lemma ScenarioPaths()
    ensures FileA != FileB && FileA != FileC && FileB != FileC
  {
    assert FileA[0][0] == 'a' && FileB[0][0] == 'b' && FileC[0][0] == 'c';
  }

  /** The file c.txt of the scenario's storage is read as one chunk. */
  lemma ScenarioReadC()
    ensures FileAt(ScenarioServer(), FileC) == Some([BytesNew])
  {
    var es := ScenarioServer().entries;
    ScenarioPaths();
    assert "a.txt" != "c.txt" by { assert "a.txt"[0] != "c.txt"[0]; }
    assert Child(es, "c.txt") == Child(es[1..], "c.txt");
    assert Child(es[1..], "c.txt") == Some(File([BytesNew]));
    assert FileC[1..] == [];
  }

  /** The tagged-protocol server's answer on the scenario. */
  lemma V2ScenarioAnswer(H: Bytes -> Digest, inv: Inventory)
    requires H(BytesX) != ""
    requires inv == [FileRecord(FileA, H(BytesX)), FileRecord(FileC, H(BytesNew))]
    ensures PlanV2(ScenarioRequest(H), inv, ScenarioServer())
            == Ended([Delete(FileB), Keep(FileA), Data(FileC, BytesNew), Complete(FileC)])
  {
    ScenarioPaths();
    var info := ScenarioRequest(H);
    var root := ScenarioServer();
    assert PathsOf(inv) == {FileA, FileC} by {
      assert inv[0].path == FileA && inv[1].path == FileC;
    }
    assert info[1..][1..] == [] && inv[1..][1..] == [];
    assert DeleteMessages(info[1..], inv) == [Delete(FileB)] + [];
    assert DeleteMessages(info, inv) == [] + [Delete(FileB)];
    assert IncomingHash(info, FileA) == Some(H(BytesX));
    assert IncomingHash(info[1..][1..], FileC) == None;
    assert IncomingHash(info, FileC) == None;
    assert KeepMessages(info, inv[1..]) == [] + [];
    assert KeepMessages(info, inv) == [Keep(FileA)] + [];
    ScenarioReadC();
    assert DataMessages(FileC, [BytesNew]) == [Data(FileC, BytesNew)];
    assert TransferMessages(info, inv[1..][1..], root) == ([], false);
    assert TransferMessages(info, inv[1..], root) == ([Data(FileC, BytesNew)] + [Complete(FileC)] + [], false);
    assert TransferMessages(info, inv, root) == TransferMessages(info, inv[1..], root);
  }

  /** The tagged-protocol client on the scenario's answer. */
  lemma V2ScenarioClient()
    ensures Run(Session(ScenarioClient()), [Delete(FileB), Keep(FileA), Data(FileC, BytesNew), Complete(FileC)]).store
            == map[FileA := BytesX, FileC := BytesNew]
  {
    ScenarioPaths();
    var msgs := [Delete(FileB), Keep(FileA), Data(FileC, BytesNew), Complete(FileC)];
    var c0 := Session(ScenarioClient());
    var c1 := Step(c0, msgs[0]);
    var c2 := Step(c1, msgs[1]);
    var c3 := Step(c2, msgs[2]);
    var c4 := Step(c3, msgs[3]);
    assert c4.store == map[FileA := BytesX, FileC := BytesNew];
    var t1, t2, t3 := msgs[1..], msgs[1..][1..], msgs[1..][1..][1..];
    assert t3[1..] == [];
    assert Run(c3, t3) == c4;
    assert Run(c2, t2) == c4;
    assert Run(c1, t1) == c4;
  }

  /** The tagged protocol on the scenario: DELETE b.txt (all DELETEs come
      first), KEEP a.txt, the content of c.txt, COMPLETE c.txt; the client
      ends with a.txt = "X" and c.txt = "new". */
  lemma V2Scenario(H: Bytes -> Digest)
    requires H(BytesX) != ""
    ensures var inv := [FileRecord(FileA, H(BytesX)), FileRecord(FileC, H(BytesNew))];
            && DistinctPaths(inv)
            && var reply := SyncFilesV2(Some(Text(ClientName)), map[ClientName := inv],
                                        map[ClientName := ScenarioServer()], ScenarioRequest(H));
               && reply == Ended([Delete(FileB), Keep(FileA), Data(FileC, BytesNew), Complete(FileC)])
               && Run(Session(ScenarioClient()), reply.msgs).store == map[FileA := BytesX, FileC := BytesNew]
  {
    ScenarioPaths();
    var inv: Inventory := [FileRecord(FileA, H(BytesX)), FileRecord(FileC, H(BytesNew))];
    V2ScenarioAnswer(H, inv);
    V2ScenarioClient();
  }

  /** The legacy server's answer on the scenario: a zero-length chunk for
      a.txt, then the content of c.txt. */
  lemma LegacyScenarioAnswer(H: Bytes -> Digest)
    requires H(BytesX) != ""
    ensures PlannerLegacy.SyncFilesLegacy(Some(Text(ClientName)), map[ClientName := ScenarioServer()],
                                          ScenarioRequest(H), H)
            == Ended([LegacyMsg(FileA, []), LegacyMsg(FileC, BytesNew)])
  {
    ScenarioPaths();
    var info := ScenarioRequest(H);
    var root := ScenarioServer();
    ScenarioInventory(H);
    var recs := Walk(root, [], H).value;
    assert info[1..][1..] == [] && recs[1..][1..] == [];
    assert IncomingHash(info, FileA) == Some(H(BytesX));
    assert IncomingHash(info[1..][1..], FileC) == None;
    assert IncomingHash(info, FileC) == None;
    assert PlannerLegacy.UnchangedMessages(info, recs[1..]) == [] + [];
    assert PlannerLegacy.UnchangedMessages(info, recs) == [LegacyMsg(FileA, [])] + [];
    ScenarioReadC();
    assert PlannerLegacy.ChunkMessages(FileC, [BytesNew]) == [LegacyMsg(FileC, BytesNew)];
    assert PlannerLegacy.LegacyTransfers(info, recs[1..][1..], root) == ([], false);
    assert PlannerLegacy.LegacyTransfers(info, recs[1..], root) == ([LegacyMsg(FileC, BytesNew)] + [], false);
    assert PlannerLegacy.LegacyTransfers(info, recs, root) == PlannerLegacy.LegacyTransfers(info, recs[1..], root);
    assert PlannerLegacy.PlanLegacy(info, root, H) == Ended([LegacyMsg(FileA, []), LegacyMsg(FileC, BytesNew)]);
  }

  /** The legacy client on the scenario's answer, with either handler. */
  lemma LegacyScenarioClient(corrected: bool, H: Bytes -> Digest)
    ensures var msgs := [LegacyMsg(FileA, []), LegacyMsg(FileC, BytesNew)];
            SinkLegacy.End(SinkLegacy.Run(SinkLegacy.Session(ScenarioClient()), msgs, corrected), ScenarioRequest(H)).store
              == map[FileA := if corrected then BytesX else [], FileC := BytesNew]
  {
    ScenarioPaths();
    var info := ScenarioRequest(H);
    var msgs := [LegacyMsg(FileA, []), LegacyMsg(FileC, BytesNew)];
    assert msgs[1..][1..] == [];
    assert PathsOf(info) == {FileA, FileB} by {
      assert info[0].path == FileA && info[1].path == FileB;
    }
    var c0 := SinkLegacy.Session(ScenarioClient());
    var c1 := SinkLegacy.Step(c0, msgs[0], corrected);
    var c2 := SinkLegacy.Step(c1, msgs[1], corrected);
    assert SinkLegacy.Run(c2, msgs[1..][1..], corrected) == c2;
    assert SinkLegacy.Run(c1, msgs[1..], corrected) == c2;
    assert c2.registry == {FileA, FileC};
    assert c2.store == map[FileA := if corrected then BytesX else [], FileB := BytesOld, FileC := BytesNew];
  }

  /** The legacy protocol on the scenario: as written the client ends with
      a.txt empty; with the corrected handler it keeps a.txt = "X". Either
      way b.txt is removed at the end of the response and c.txt = "new". */
  lemma LegacyScenario(H: Bytes -> Digest)
    requires H(BytesX) != ""
    ensures var reply := PlannerLegacy.SyncFilesLegacy(Some(Text(ClientName)), map[ClientName := ScenarioServer()],
                                                       ScenarioRequest(H), H);
            && reply == Ended([LegacyMsg(FileA, []), LegacyMsg(FileC, BytesNew)])
            && SinkLegacy.End(SinkLegacy.Run(SinkLegacy.Session(ScenarioClient()), reply.msgs, false),
                              ScenarioRequest(H)).store == map[FileA := [], FileC := BytesNew]
            && SinkLegacy.End(SinkLegacy.Run(SinkLegacy.Session(ScenarioClient()), reply.msgs, true),
                              ScenarioRequest(H)).store == map[FileA := BytesX, FileC := BytesNew]
  {
    LegacyScenarioAnswer(H);
    LegacyScenarioClient(false, H);
    LegacyScenarioClient(true, H);
  }
}

=== FILE: types.dfy ===
/** Shared vocabulary of the synchronisation engine: bytes, relative paths,
    content digests, the {path, hash} records that inventories are made of,
    and the conversion of an ordered record list into a path -> digest map. */
module Types {

  newtype byte = x: int | 0 <= x < 256

  type Bytes = seq<byte>

  /** One component of a relative path (a directory-entry name). */
  type Name = string

  /** A path relative to a storage root, as its sequence of components.
      Joining, resolving and relativising paths are concatenation of segments. */
  type Path = seq<Name>

  /** The hexadecimal digest string carried on the wire. */
  type Digest = string

  datatype Option<+T> = None | Some(value: T)

  datatype IoError = ReadDirFailed | ReadFailed | StatFailed

  datatype Result<+T> = Success(value: T) | Failure(error: IoError)

  /** One inventory entry: a relative path and the digest of its content. */
  datatype FileRecord = FileRecord(path: Path, hash: Digest)

  /** What a store holds under a key, `None` when the key is absent. */
  function Lookup<K, V>(store: map<K, V>, key: K): (r: Option<V>)
    ensures r.Some? <==> key in store
  {
    if key !in store then None else Some(store[key])
  }

  /** The bytes of a file read as a sequence of chunks. */
  function Concat(chunks: seq<Bytes>): (r: Bytes)
    ensures |chunks| == 0 ==> r == []
  {
    if |chunks| == 0 then [] else chunks[0] + Concat(chunks[1..])
  }

  lemma {:induction false} ConcatAppend(a: seq<Bytes>, b: seq<Bytes>)
    ensures Concat(a + b) == Concat(a) + Concat(b)
  {
    if |a| == 0 {
      assert a + b == b;
    } else {
      assert (a + b)[1..] == a[1..] + b;
      ConcatAppend(a[1..], b);
    }
  }

  /** Read as chunks that are never empty, a file has content exactly when
      it has a chunk. */
  lemma ConcatEmptyIff(chunks: seq<Bytes>)
    requires forall i :: 0 <= i < |chunks| ==> |chunks[i]| > 0
    ensures |Concat(chunks)| > 0 <==> |chunks| > 0
  {
  }

  ghost predicate DistinctPaths(recs: seq<FileRecord>)
  {
    forall i, j :: 0 <= i < j < |recs| ==> recs[i].path != recs[j].path
  }

  /** An insertion-ordered map from path to digest: an ordered record list
      whose paths are pairwise distinct. */
  type Inventory = recs: seq<FileRecord> | DistinctPaths(recs) witness []

  function PathsOf(recs: seq<FileRecord>): set<Path>
  {
    set i | 0 <= i < |recs| :: recs[i].path
  }

  /** Builds a map from records in order; a later record for the same path
      replaces an earlier one, as inserting into a map does. */
  function ToMap(recs: seq<FileRecord>): (m: map<Path, Digest>)
    ensures m.Keys == PathsOf(recs)
  {
    if |recs| == 0 then map[]
    else
      var init := recs[..|recs| - 1];
      var last := recs[|recs| - 1];
      assert PathsOf(recs) == PathsOf(init) + {last.path} by {
        assert forall i :: 0 <= i < |init| ==> recs[i] == init[i];
      }
      ToMap(init)[last.path := last.hash]
  }

  /** Dropping the first record keeps the paths distinct, and no later
      record names the first one's path. */
  lemma DistinctTail(recs: seq<FileRecord>)
    requires DistinctPaths(recs) && |recs| > 0
    ensures DistinctPaths(recs[1..])
    ensures recs[0].path !in PathsOf(recs[1..])
  {
  }

  /** Converting a list with distinct paths into a map loses nothing: the map
      has one key per record and maps each record's path to its digest. */
  lemma {:induction false} ToMapLosesNothing(recs: seq<FileRecord>)
    requires DistinctPaths(recs)
    ensures |ToMap(recs)| == |recs|
    ensures forall i :: 0 <= i < |recs| ==> ToMap(recs)[recs[i].path] == recs[i].hash
  {
    if |recs| > 0 {
      var init := recs[..|recs| - 1];
      var last := recs[|recs| - 1];
      assert DistinctPaths(init) by {
        assert forall i :: 0 <= i < |init| ==> init[i] == recs[i];
      }
      ToMapLosesNothing(init);
      assert forall i :: 0 <= i < |init| ==> init[i] == recs[i] && init[i].path != last.path;
      assert last.path !in ToMap(init);
      var m := ToMap(init)[last.path := last.hash];
      assert ToMap(recs) == m;
      forall i | 0 <= i < |recs|
        ensures m[recs[i].path] == recs[i].hash
      {
        if i < |init| {
          assert recs[i] == init[i];
        }
      }
    }
  }
}
